=== FILE: README.md ===
# Fine-tuning dashboard: pipeline orchestration model

This project models the orchestration core of the fine-tuning dashboard
(`src/App.js`). A task passes through four backend stages: dataset
generation, fine-tuning, GGUF quantization and Ollama deployment. The
dashboard keeps the task records and one polling timer per stage. It also
keeps three popups: dataset, fine-tune, and a result popup that GGUF and
Ollama share. The handlers decide when to POST a start request, when to
resume polling instead, and when to refuse.

The model is purely functional:

- Backend replies are already-decoded values: `Reply.Ok(data)` or `Reply.Err`.
- "A token is stored" is a boolean input.
- A timer is the task id its interval was created for (`Option<TaskId>`).
- One interval firing is a `Tick` carrying the reply of that tick's fetch.

Each handler returns the next state, the list of POSTs it issued and how it
ended.

Modules, one per file:

- `Values`: the `Option` type and JavaScript's `??` and `||` on strings.
- `Text`: ASCII `trim`, lower-casing, the model-name slug, decimal rendering of sizes, joining.
- `Status`: the five-value stage status and the three raw-status mappings.
- `Backend`: reply payloads, start requests, fixed request parameters.
- `Registry`: task records, the list refresh, id-keyed merges, lookup.
- `Timers`: the four timer slots with `start` and `stop`.
- `Sessions`: the three popup records and the rounded progress percent.
- `AppState`: the whole dashboard state, popup close handlers, unmount.
- `Polling`: the four `fetch*Status` ticks and their independence.
- `Handlers`: the start handlers and their gates.
- `Files`: new-task file de-duplication, remove-by-index, file preview.
- `Dashboard`: every action as one transition function. It also holds the invariant that each running timer polls the task its open popup shows.
- `Scenarios`: concrete end-to-end runs.

## Model

| member | source | states |
|---|---|---|
| Status.MapStageStatus | src/App.js:149-169 | PENDING, RUNNING, SUCCEEDED and FAILED map to their own status, each in both directions; every other value, NOT_REQUESTED and null included, maps to idle. `mapDatasetStatus` is the same map. |
| Status.WireNameRoundTrip | src/App.js:149-163 | Each status is hit by its backend spelling, so the map is onto the five statuses. |
| Status.MapFtPollStatus | src/App.js:356-365 | The fine-tune poll's inline chain agrees with `mapStageStatus` on every input. |
| Status.MapListFtStatus | src/App.js:661-673 | The list refresh gives idle exactly for DRAFT. The four known values map as usual. Any other value, null included, becomes running. |
| Status.ListAndPollMappingsDiffer | src/App.js:356-365 | The list mapping and the poll mapping differ exactly on non-DRAFT values that the poll reads as idle; there the list says running. |
| Registry.FromSnapshot | src/App.js:646-703 | A list element becomes a record with the same id and benchmark idle. Fine-tune gets the list mapping, so it is idle iff the element is a draft. The dataset, GGUF and Ollama statuses are mapped. The creation time is created_at, else updated_at, else now; a missing file list is empty; counters, path, error, progress, last message, hub repo id, quantization, GGUF path and Ollama model name are copied. The name is the first non-empty of notes, hub id and base model, else the task id; it is empty only when the id is. |
| Registry.FromSnapshots | src/App.js:646-705 | The conversion keeps length and order, element by element. |
| Registry.Refresh | src/App.js:629-713 | No token leaves the list unchanged. A failed fetch empties it. A successful fetch replaces it with the converted reply in backend order, with null read as no tasks. |
| Registry.RefreshForgetsPrevious | src/App.js:705-709 | A refresh ignores the previous list entirely. |
| Registry.IndexOf | src/App.js:860 | Returns the first position holding the id, or -1 exactly when no record has it. |
| Registry.Find | src/App.js:860 | `tasks.find` returns nothing exactly when no record has the id; otherwise the record at the first position holding that id. |
| Registry.Apply | src/App.js:285-301 | A merge keeps the id and writes only its own stage's fields, with the values of the reply: mapped status, counters, error, progress, last message. The fine-tune poll never writes the recorded fine-tune error. The dataset poll keeps the old path when the reply has none; the dataset start never writes the path. The GGUF poll overwrites quantization and path and the Ollama poll the model name, null when absent. A GGUF or Ollama start records the reply's quantization or model name, else the one that was sent. |
| Registry.ApplyCommutes | src/App.js:367-380 | Merges into different stages commute on one record. |
| Registry.UpdateWhere | src/App.js:434-445 | An id-keyed merge keeps length, order and ids, patches each record with the id and leaves every other record equal. |
| Registry.UpdateUnknownId | src/App.js:498-508 | A merge for an id no record has changes nothing. |
| Registry.FindAfterUpdate | src/App.js:922-937 | After a merge, looking the id up gives the merged record. |
| Registry.UpdateWhereCommutes | src/App.js:1056-1067 | Id-keyed merges into different stages commute whatever ids they target. |
| Timers.Stop | src/App.js:261-266 | `stop` always leaves its slot empty, never touches another slot, and is a no-op on an empty slot. |
| Timers.StopIdempotent | src/App.js:334-339 | Stopping twice equals stopping once. |
| Timers.Start | src/App.js:326-331 | `start(id)` binds the slot to `id` and leaves the other three slots alone. |
| Timers.StartSupersedes | src/App.js:403-408 | A second `start` on a stage discards the first one entirely. |
| Timers.StopAll | src/App.js:537-544 | The unmount cleanup empties all four slots. |
| Sessions.RoundedPercent | src/App.js:1352-1359 | There is a percent exactly when processed is present and total is positive. It is the integer nearest to the exact ratio processed·100/total, halves up (the floating-point computation can differ; see the Left out section). |
| Sessions.RoundedPercentInRange | src/App.js:1361-1368 | When processed does not exceed total, the percent lies in 0..100. |
| AppState.CloseDatasetPopup | src/App.js:1916-1921 | Closing the dataset popup empties the dataset slot and marks the popup closed. The other slots and everything else are unchanged. |
| AppState.CloseFtPopup | src/App.js:2014-2019 | Closing the fine-tune popup empties the fine-tune slot only. |
| AppState.CloseResultPopup | src/App.js:2191-2197 | Closing the result popup empties both the GGUF and the Ollama slot. |
| AppState.Unmount | src/App.js:537-544 | Unmount empties all four slots and changes nothing else. |
| Polling.FetchDatasetStatus | src/App.js:268-324 | The dataset tick for X does nothing without a token or on error. Otherwise it is the id-keyed dataset-poll merge on the registry: only records with id X change, and on them status, counters and error come from the reply while the old path is kept when the reply has none. It updates the popup only when the popup is bound to X. A terminal status empties the dataset slot. |
| Polling.FetchFtStatus | src/App.js:341-401 | The fine-tune tick does nothing without a token or on error. Otherwise only records with id X change: status, progress and last message come from the reply, and the recorded fine-tune error is kept. The popup is updated only when its fine-tune task id is X. A terminal status empties the fine-tune slot. |
| Polling.FetchGgufStatus | src/App.js:417-465 | The GGUF tick does nothing without a token or on error. Otherwise only records with id X change: status, and quantization and path overwritten by the reply, null when the reply has none (no old value is kept). Only the GGUF fields of the result popup move, and only when it shows X. A terminal status empties the GGUF slot. |
| Polling.FetchOllamaStatus | src/App.js:481-527 | The Ollama tick does nothing without a token or on error. Otherwise only records with id X change: status, and the model name overwritten by the reply, null when the reply has none. Only the Ollama fields of the result popup move, and only when it shows X. A terminal status empties the Ollama slot. |
| Polling.Tick | src/App.js:326-331 | An interval firing with an empty slot does nothing. Otherwise it is exactly the stage's own fetch (FetchDatasetStatus, FetchFtStatus, FetchGgufStatus or FetchOllamaStatus) for the id the timer was started with, so every registry, popup and slot property of those fetches holds for the tick. A terminal reply empties the slot. A non-terminal reply, a failed call or a missing token keeps the slot. |
| Polling.StartRetargetsTicks | src/App.js:467-472 | After `start(B)` a tick can touch only records of B; the previously polled task is abandoned. |
| Polling.NoTickAfterTerminal | src/App.js:318-323 | After a tick sees succeeded or failed, later ticks of that stage change nothing. |
| Polling.TicksCommute | src/App.js:395-400 | Ticks of two different stages give the same state in either order. |
| Polling.FetchesCommute | src/App.js:459-464 | Fetches of two different stages commute, whatever task ids they carry. |
| Polling.PatchOf | src/App.js:285-301 | The registry merge of a reply writes the fields of the reply's own stage. The same choice is made at the fine-tune, GGUF and Ollama `setTasks(prev.map(...))` sites (src/App.js:367-380, 435-444, 499-507). |
| Handlers.HandleGenerateDataset | src/App.js:846-964 | No token: nothing happens. A task already pending, running or succeeded: no POST, the popup mirrors the record, polling restarts only when in flight. Otherwise: exactly one POST with chunk length 180 and 2 attempts. On success the record is merged, the popup shows the reply's status, error (empty when absent) and counters, and polling starts. On failure the popup shows failed with the start error and no counters, the record is untouched and the dataset slot is emptied. |
| Handlers.ResumeIsIdempotent | src/App.js:862-888 | Clicking generate again on an already requested dataset changes nothing and posts nothing. |
| Handlers.SecondClickDoesNotRepost | src/App.js:862-937 | After a start of a listed task is accepted as pending, running or succeeded, the next click posts nothing. |
| Handlers.HandleRunFineTune | src/App.js:966-1009 | Never posts. The fine-tune form opens exactly when the task exists, its dataset succeeded and a dataset path is recorded; otherwise nothing changes. |
| Handlers.HandleStartFineTune | src/App.js:1206-1305 | Posts exactly when token, source task, usable dataset, non-blank base model, hub id and HF token are all present, and then posts one request with the trimmed fields. On success the popup follows the new task, the list is reloaded and fine-tune polling targets the new id. On failure the popup shows the error and the fine-tune slot is emptied. |
| Handlers.QuantizationOrDefault | src/App.js:1041 | The quantization sent is the trimmed input, or q4_k_m when the input is blank. It is never empty and has no surrounding spaces. |
| Handlers.DefaultModelName | src/App.js:1131-1137 | The suggested model name is the recorded one, else the task name's slug, else `ft-model-<id>`. It is never empty, and when it comes from the name it is a valid slug. |
| Handlers.OllamaModelName | src/App.js:1139-1140 | The model name sent is the trimmed input, else the suggestion; never empty. |
| Handlers.HandleStartGguf | src/App.js:1011-1099 | Posts exactly when a task is selected, a token is present and the fine-tune succeeded; then one POST with the defaulted quantization. On success the record is merged and the popup changes only its GGUF status, quantization (reply's, else the one sent), path and error; polling starts only for a pending or running reply. On failure only the popup's GGUF status and error change. |
| Handlers.HandleStartOllama | src/App.js:1101-1203 | Posts exactly when a task is selected, a token is present and the GGUF file is ready; then one POST whose model name is never empty. On success the record with that id is merged with the reply, and the popup changes only its Ollama status, model name (the reply's, else the one sent) and error. Polling starts only for a pending or running reply. A failure changes only the popup's Ollama status and error. |
| Handlers.HandleViewResult | src/App.js:1308-1348 | Never posts. It opens the result popup bound to the task: hub repo id, both statuses, quantization, GGUF path and Ollama model name come from the record (empty when absent), errors are cleared, the model-name input is the suggestion, and the quantization input takes the record's non-empty quantization, else keeps its previous value; nothing else in the popup changes. GGUF and Ollama polling restart only for a stage in flight. An unknown task changes nothing. |
| Files.KeyInjective | src/App.js:749-755 | Two files share the `name-size` key exactly when they have the same name and size. |
| Files.MergedMembers | src/App.js:749-762 | After adding picked files, a file is in the list exactly when it was there before or was picked. |
| Files.MergedExtends | src/App.js:751-759 | Adding files only appends; the previous list is a prefix of the new one. |
| Files.MergedDistinct | src/App.js:753-757 | A list without duplicate keys stays without them. |
| Files.AddFiles | src/App.js:749-762 | The loop with its set of seen keys computes the reference merge. The old list is a prefix, membership is old-or-picked, and distinct keys are kept. |
| Files.RemoveAt | src/App.js:734-736 | Removing index i drops exactly that element when i is in range and leaves the list unchanged otherwise. |
| Files.RemovedFileCanBeReadded | src/App.js:734-762 | A removed file's key is free again: picking the file again appends it. |
| Files.PreviewNames | src/App.js:102 | The preview names are the first min(3, n) filenames, in order. |
| Files.FilePreview | src/App.js:97-110 | An empty list gives "". Up to three files give their names joined by ", ". More files give the first three names, then ` +N more` with N = n - 3. |
| Files.PreviewStartsWithFirstName | src/App.js:102-109 | A row with at least one file always starts its preview with the first filename. |
| Text.Trim | src/App.js:1234-1252 | `trim` returns a contiguous piece of the input with only whitespace cut off on either side, and no whitespace at its ends; the result is empty exactly when the input is all whitespace. |
| Text.TrimIdempotent | src/App.js:1041 | Trimming twice equals trimming once. |
| Text.Lower | src/App.js:1133 | Lower-casing keeps the length, turns each upper-case ASCII letter into its lower-case counterpart and keeps every other character. |
| Text.CollapseSpaces | src/App.js:1135 | Replacing whitespace runs by `-` leaves no whitespace, keeps every other character except dashes with its exact count, writes at least one dash when there was whitespace, and changes nothing in a string without whitespace. |
| Text.CollapseSpacesRun | src/App.js:1135 | Characters before the first whitespace run are copied in order, the whole run becomes a single dash, and the rest is collapsed the same way. |
| Text.KeepSlugChars | src/App.js:1136 | Dropping non-slug characters gives a slug that keeps every `a-z`, `0-9` and `-` character with its exact count, is the identity on a slug and never lengthens. |
| Text.KeepSlugCharsAppend | src/App.js:1136 | Filtering distributes over concatenation, so the kept characters stay in their original order. |
| Text.Slug | src/App.js:1131-1137 | The name slug consists only of `a-z`, `0-9` and `-`, and keeps every letter and digit of the lower-cased name with its count, so it is empty only for a name without any ASCII letter or digit; only then does the suggestion fall back to `ft-model-<id>`. |
| Text.SlugOfWords | src/App.js:1131-1137 | The slug of two parts separated by whitespace is the first part's slug, one dash, then the rest's slug: word order is kept. |
| Text.SlugIdempotent | src/App.js:1315-1321 | Slugging a slug changes nothing. |
| Text.NatToString | src/App.js:750 | A size renders as a non-empty string of decimal digits. |
| Text.ParseNatToString | src/App.js:754 | Reading the digits of a rendered size gives the size back. |
| Text.NatToStringInjective | src/App.js:754 | Different sizes render differently. |
| Dashboard.InitialCoherent | src/App.js:537-544 | Right after mount no timer runs, so every running timer trivially belongs to its open popup. |
| Dashboard.TickKeepsCoherent | src/App.js:318-323 | A tick never rebinds a popup and can only keep or empty its slot. |
| Dashboard.TickKeepsBindings | src/App.js:318-323 | A polling tick, whatever its reply, leaves every popup's open flag and bound task id as they were: polls only write progress fields. |
| Dashboard.GenerateDatasetKeepsCoherent | src/App.js:862-955 | Whatever branch it takes, generate leaves the dataset slot empty or bound to the task its popup shows. |
| Dashboard.RunFineTuneKeepsCoherent | src/App.js:990-1008 | Opening the fine-tune form starts no timer. |
| Dashboard.StartFineTuneKeepsCoherent | src/App.js:1276-1303 | Fine-tune polling is bound to the fine-tune task the popup follows. |
| Dashboard.StartGgufKeepsCoherent | src/App.js:1077-1079 | GGUF polling is bound to the task the result popup shows. |
| Dashboard.StartOllamaKeepsCoherent | src/App.js:1181-1183 | Ollama polling is bound to the task the result popup shows. |
| Dashboard.ViewResultKeepsCoherent | src/App.js:1342-1347 | Timers restarted by the result view are bound to the task the popup now shows. |
| Dashboard.CloseKeepsCoherent | src/App.js:1995-2001 | A step that only empties slots and leaves the popup bindings of running slots alone keeps the invariant. |
| Dashboard.NextKeepsCoherent | src/App.js:846-1348 | Every enabled action, timer firing, reload and unmount keeps every running timer bound to the open popup of its stage. |
| Dashboard.RunKeepsCoherent | src/App.js:261-544 | Any sequence of events from a coherent state ends in a coherent state, with each start handler taken as one step (see the Left out section). |
| Dashboard.ReachableIsCoherent | src/App.js:537-544 | Every state reachable from mount is coherent, with each start handler taken as one step (see the Left out section). |
| Dashboard.ClosedPopupIsSilent | src/App.js:1916-1921 | In a coherent state a stage whose popup is closed has no running timer, so its ticks change nothing. |
| Scenarios.DatasetRunToSuccess | src/App.js:846-964 | Draft t1: one POST with chunk length 180. A poll at 3 of 10 chunks shows 30%. A SUCCEEDED poll shows succeeded, stops the timer and records the dataset path and 42 rows. |
| Scenarios.GgufRejectedWhileFineTunePending | src/App.js:1030-1039 | Asking for GGUF while the fine-tune is pending posts nothing and changes nothing. |
| Scenarios.GgufFailureThenRetry | src/App.js:417-465 | A FAILED poll with error oom shows failed and oom and stops the timer. A retry posts once and starts a fresh timer for the same task. |
| Scenarios.SucceededDatasetIsNotRestarted | src/App.js:862-888 | Reopening a succeeded dataset posts nothing and starts no timer. |
| Scenarios.PollCanReturnToIdle | src/App.js:282-316 | A running dataset whose poll reports NOT_REQUESTED is shown as idle again in the record and the popup, and polling continues. |

## Behaviour of the code worth knowing

The model follows `src/App.js` in these places:

- Status.MapListFtStatus: the task list maps an unknown non-draft fine-tune status to running, while the fine-tune poll maps the same value to idle (src/App.js:356-365, 663-673).
- Scenarios.PollCanReturnToIdle: the poll handlers do not guard against moving a status back to idle. NOT_REQUESTED or an unknown value in a poll reply writes idle over a running stage (src/App.js:149-163, 282-316).
- Handlers.HandleStartGguf and Handlers.HandleStartOllama: a failed start leaves the stage's timer running (src/App.js:1087-1099, 1191-1203), while the dataset and fine-tune starts stop their timer on failure (src/App.js:951-963, 1292-1304).

## Left out

- Sign-in and tokens are reduced to a boolean "a token is stored": Google sign-in, local storage, cookies and token expiry are browser I/O and clock reads (src/App.js:55-95, 547-627).
- HTTP is abstracted away. Each call is an already-decoded success value or a failure, and headers, URLs and JSON decoding are not modelled.
- Creating a draft task is left out: the FormData upload and `handleCreateTask` are transport plumbing (src/App.js:765-844).
- Real intervals (2000 ms and 3000 ms) are left out, since the model has no clock. A timer firing is the explicit `Tick` event.
- Overlapping in-flight fetches and races between a list reload and a merge are left out. The model runs steps one at a time, in the order they complete.
- Floating-point fields are left out: the learning rate and temperature inputs, their `Number(...)` conversions and the file-size `toFixed` formatting.
- The fine-tune inputs epochs, batch size and max length are typed as integers. The dashboard reads them with `Number(...)` (src/App.js:1260-1263, 2087, 2114, 2127), so a fractional value or NaN can be posted; those are not modelled. The fine-tune percent is copied as a real number but never rounded.
- Rendering, toasts, dialogs and the token popup are left out. The visible difference between a toast and an alert is not modelled; a refusal is a `Rejected` outcome with its reason.
- Text.Lower, Text.CollapseSpaces and Text.Trim use ASCII letters and ASCII whitespace only. JavaScript's Unicode case mapping and `\s` are not modelled.
- Files.AddFiles: a picked file is identified by its name and size only, so two different files with the same name and size count as one value. The browser's `File` objects, and the normalisation of a single file or a FileList into an array (src/App.js:739-747), are not modelled.
- Dashboard.NextKeepsCoherent assumes the task-list buttons can be pressed only while no popup is open, and a popup's buttons only while it is open. The popups cover the list, so this holds on screen but is not enforced in code.
- Handlers.HandleStartFineTune takes the task-list reply that follows a successful start as a parameter. It does not model the case where the token disappears between the POST and the reload.
- Sessions.RoundedPercent: the percent is the exact rounding of processed·100/total. The dashboard computes `Math.round(processed / total * 100)` in IEEE doubles, which lands just below a half for some inputs: 23 of 40 gives 57.49999999999999 and shows 57 where the model gives 58 (also 29 of 200, 57 of 200). Double arithmetic is not modelled.
- Dashboard.ReachableIsCoherent: each start handler is one atomic step that ends before the next event. In the dashboard the start POST is awaited while the popup's Close button still works, so closing the result popup during `handleStartGguf`'s POST (src/App.js:1044, 2420-2426) and then receiving a pending reply starts GGUF polling with no popup open (src/App.js:1077-1079). The dataset start (src/App.js:906-950 against 1995-2001), the fine-tune start (src/App.js:1270-1284 against 2172-2177) and the Ollama start (src/App.js:1143, 1181-1183 against 2420-2426) can leave a timer running the same way. Interleavings inside a handler are not modelled, so this invariant does not cover them.
- Dashboard.RunKeepsCoherent: for the same reason, the sequences of events it covers complete each start handler before the next event.

=== FILE: app.dfy ===
/** The dashboard's orchestration state: the task registry, the four timer
    slots and the three popups, plus the teardown paths that must leave no
    timer behind. */
module AppState {
  import opened Values
  import opened Status
  import opened Backend
  import opened Registry
  import opened Timers
  import opened Sessions

  datatype App = App(
    tasks: seq<Task>,
    timers: Timers,
    dataset: DatasetSession,
    ft: FtSession,
    result: ResultSession)

  /** The state right after mount: no tasks, no timers, every popup closed. */
  const InitialApp := App([], NoTimers, InitialDatasetSession, InitialFtSession, InitialResultSession)

  /** Closing the dataset popup (by its Close button or by dismissing it):
      its timer stops and the popup is marked closed; nothing else changes. */
  function CloseDatasetPopup(a: App): (r: App)
    ensures r.timers.Slot(DatasetKind) == None
    ensures forall k :: k != DatasetKind ==> r.timers.Slot(k) == a.timers.Slot(k)
    ensures !r.dataset.isOpen && r.dataset == a.dataset.(isOpen := false)
    ensures r.tasks == a.tasks && r.ft == a.ft && r.result == a.result
  {
    a.(timers := Stop(a.timers, DatasetKind), dataset := a.dataset.(isOpen := false))
  }

  /** Closing the fine-tuning popup stops the fine-tune timer. */
  function CloseFtPopup(a: App): (r: App)
    ensures r.timers.Slot(FineTuneKind) == None
    ensures forall k :: k != FineTuneKind ==> r.timers.Slot(k) == a.timers.Slot(k)
    ensures !r.ft.isOpen && r.ft == a.ft.(isOpen := false)
    ensures r.tasks == a.tasks && r.dataset == a.dataset && r.result == a.result
  {
    a.(timers := Stop(a.timers, FineTuneKind), ft := a.ft.(isOpen := false))
  }

  /** Closing the result popup stops both the GGUF and the Ollama timer. */
  function CloseResultPopup(a: App): (r: App)
    ensures r.timers.Slot(GgufKind) == None && r.timers.Slot(OllamaKind) == None
    ensures r.timers.Slot(DatasetKind) == a.timers.Slot(DatasetKind)
    ensures r.timers.Slot(FineTuneKind) == a.timers.Slot(FineTuneKind)
    ensures !r.result.isOpen && r.result == a.result.(isOpen := false)
    ensures r.tasks == a.tasks && r.dataset == a.dataset && r.ft == a.ft
  {
    a.(timers := Stop(Stop(a.timers, GgufKind), OllamaKind), result := a.result.(isOpen := false))
  }

  /** The unmount cleanup: every timer stops and nothing else changes. */
  function Unmount(a: App): (r: App)
    ensures forall k :: r.timers.Slot(k) == None
    ensures r == a.(timers := NoTimers)
  {
    a.(timers := StopAll(a.timers))
  }
}

=== FILE: backend.dfy ===
/** What crosses the wire: already-decoded replies of the task API and the
    start requests the dashboard sends. A reply is either the decoded body or
    a failure (transport error or non-2xx status); HTTP itself is not
    modelled. */
module Backend {
  import opened Values

  type TaskId = string

  /** The outcome of one HTTP call. */
  datatype Reply<+T> = Ok(data: T) | Err

  /** The dataset job's counters, each possibly absent. */
  datatype DatasetCounters = DatasetCounters(
    totalFiles: Option<int>,
    processedFiles: Option<int>,
    totalChunks: Option<int>,
    processedChunks: Option<int>,
    totalRows: Option<int>)

  const NoCounters := DatasetCounters(None, None, None, None, None)

  /** The fine-tune job's progress, each field possibly absent. The percent
      is a JavaScript number that the dashboard only copies. */
  datatype FtProgress = FtProgress(
    percent: Option<real>,
    currentEpoch: Option<int>,
    totalEpochs: Option<int>)

  const NoFtProgress := FtProgress(None, None, None)

  /** An uploaded input file as listed by the backend. */
  datatype FileInfo = FileInfo(id: string, filename: string, sizeBytes: int, createdAt: string)

  /** One element of `GET /tasks`. */
  datatype TaskSnapshot = TaskSnapshot(
    taskId: TaskId,
    status: Option<string>,
    notes: Option<string>,
    hubModelId: Option<string>,
    baseModel: Option<string>,
    createdAt: Option<string>,
    updatedAt: Option<string>,
    files: Option<seq<FileInfo>>,
    datasetStatus: Option<string>,
    datasetCounters: DatasetCounters,
    datasetError: Option<string>,
    datasetPath: Option<string>,
    progress: FtProgress,
    lastMessage: Option<string>,
    error: Option<string>,
    hfRepoId: Option<string>,
    ggufStatus: Option<string>,
    ggufQuantization: Option<string>,
    ggufPath: Option<string>,
    ollamaStatus: Option<string>,
    ollamaModelName: Option<string>)

  /** Body of `POST /tasks/{id}/dataset` and of `GET /tasks/{id}/dataset`
      (only the poll reads `path`). */
  datatype DatasetPayload = DatasetPayload(
    status: Option<string>,
    counters: DatasetCounters,
    error: Option<string>,
    path: Option<string>)

  /** Body of `GET /tasks/{id}/status`. */
  datatype FtPayload = FtPayload(
    status: Option<string>,
    progress: FtProgress,
    lastMessage: Option<string>)

  /** Body of `POST` and `GET /tasks/{id}/gguf`. */
  datatype GgufPayload = GgufPayload(
    status: Option<string>,
    quantization: Option<string>,
    path: Option<string>,
    error: Option<string>)

  /** Body of `POST` and `GET /tasks/{id}/ollama`. */
  datatype OllamaPayload = OllamaPayload(
    status: Option<string>,
    modelName: Option<string>,
    error: Option<string>)

  /** A start request: the POST a handler issues, with the body fields the
      model keeps. */
  datatype Request =
    | StartDatasetRequest(taskId: TaskId, systemPrompt: string, chunkLength: int, maxAttempts: int)
    | StartFineTuneRequest(
        draftTaskId: TaskId,
        baseModel: string,
        hubModelId: string,
        numTrainEpochs: int,
        perDeviceTrainBatchSize: int,
        maxLength: int,
        notes: string,
        hfToken: string)
    | StartGgufRequest(taskId: TaskId, quantizationMethod: string)
    | StartOllamaRequest(
        taskId: TaskId,
        modelName: string,
        systemPrompt: string,
        pushToRegistry: bool,
        registryModelName: string,
        apiKey: string)

  const DatasetSystemPrompt := "You generate QA pairs ONLY from the provided text."
  const DatasetChunkLength := 180
  const DatasetMaxAttempts := 2
  const DefaultQuantization := "q4_k_m"
}

=== FILE: files.dfy ===
/** The file list of the new-task form and the file preview of a task row.
    A picked file is kept as its name and byte size, the two fields the
    dashboard's de-duplication key is built from. */
module Files {
  import opened Text
  import opened Backend

  datatype NewFile = NewFile(name: string, size: nat)

  /** The de-duplication key `${name}-${size}`. */
  function Key(f: NewFile): string
  {
    f.name + "-" + NatToString(f.size)
  }

  /** Position of the last `-` in `s`, or -1. */
  function LastDash(s: string): (p: int)
    ensures -1 <= p < |s|
    decreases |s|
  {
    if s == [] then -1
    else if s[|s| - 1] == '-' then |s| - 1
    else LastDash(s[..|s| - 1])
  }

  /** A size has no `-`, so the last `-` of a key is the separator. */
  lemma {:induction false} LastDashOfKey(n: string, d: string)
    requires AllDigits(d)
    ensures LastDash(n + "-" + d) == |n|
    decreases |d|
  {
    var k := n + "-" + d;
    if d != [] {
      assert k[..|k| - 1] == n + "-" + d[..|d| - 1];
      assert k[|k| - 1] == d[|d| - 1];
      LastDashOfKey(n, d[..|d| - 1]);
    }
  }

  lemma SeparatorIsLast(n1: string, d1: string, n2: string, d2: string)
    requires AllDigits(d1) && AllDigits(d2)
    requires n1 + "-" + d1 == n2 + "-" + d2
    ensures n1 == n2 && d1 == d2
  {
    var k := n1 + "-" + d1;
    LastDashOfKey(n1, d1);
    LastDashOfKey(n2, d2);
    assert n1 == k[..|n1|] == n2;
    assert d1 == k[|n1| + 1..] == d2;
  }

  /** Two files share a key exactly when they have the same name and size:
      the key loses nothing. */
  lemma KeyInjective(f: NewFile, g: NewFile)
    ensures Key(f) == Key(g) <==> f == g
  {
    if Key(f) == Key(g) {
      SeparatorIsLast(f.name, NatToString(f.size), g.name, NatToString(g.size));
      NatToStringInjective(f.size, g.size);
    }
  }

  function KeysOf(s: seq<NewFile>): set<string>
  {
    set f | f in s :: Key(f)
  }

  /** No two entries share a key. */
  predicate KeysDistinct(s: seq<NewFile>)
  {
    forall i, j :: 0 <= i < j < |s| ==> Key(s[i]) != Key(s[j])
  }

  /** Reference definition of the merge in `handleNewTaskFilesChange`: walk
      the picked files in order and append each one whose key is not yet in
      the list. */
  function Merged(acc: seq<NewFile>, rest: seq<NewFile>): seq<NewFile>
    decreases |rest|
  {
    if rest == [] then acc
    else Merged(if Key(rest[0]) in KeysOf(acc) then acc else acc + [rest[0]], rest[1..])
  }

  lemma KeysOfAppend(s: seq<NewFile>, f: NewFile)
    ensures KeysOf(s + [f]) == KeysOf(s) + {Key(f)}
  {
    assert forall g :: g in s + [f] <==> g in s || g == f;
  }

  /** The merge only appends: the previous list survives as a prefix. */
  lemma {:induction false} MergedExtends(acc: seq<NewFile>, rest: seq<NewFile>)
    ensures |acc| <= |Merged(acc, rest)| && Merged(acc, rest)[..|acc|] == acc
    decreases |rest|
  {
    if rest != [] {
      var next := if Key(rest[0]) in KeysOf(acc) then acc else acc + [rest[0]];
      MergedExtends(next, rest[1..]);
      assert next[..|acc|] == acc;
    }
  }

  /** A file ends up in the list exactly when it was there before or was
      picked; since keys are faithful, a dropped file was a true duplicate. */
  lemma {:induction false} MergedMembers(acc: seq<NewFile>, rest: seq<NewFile>)
    ensures forall f :: f in Merged(acc, rest) <==> f in acc || f in rest
    decreases |rest|
  {
    if rest != [] {
      var f := rest[0];
      var next := if Key(f) in KeysOf(acc) then acc else acc + [f];
      MergedMembers(next, rest[1..]);
      assert rest == [f] + rest[1..];
      if Key(f) in KeysOf(acc) {
        var g :| g in acc && Key(g) == Key(f);
        KeyInjective(g, f);
      }
    }
  }

  /** A list without duplicate keys stays without them. */
  lemma {:induction false} MergedDistinct(acc: seq<NewFile>, rest: seq<NewFile>)
    requires KeysDistinct(acc)
    ensures KeysDistinct(Merged(acc, rest))
    decreases |rest|
  {
    if rest != [] {
      var f := rest[0];
      if Key(f) in KeysOf(acc) {
        MergedDistinct(acc, rest[1..]);
      } else {
        var next := acc + [f];
        forall i, j | 0 <= i < j < |next|
          ensures Key(next[i]) != Key(next[j])
        {
          if j == |acc| {
            assert next[i] in acc;
          }
        }
        MergedDistinct(next, rest[1..]);
      }
    }
  }

  /** `handleNewTaskFilesChange`: the set of seen keys is kept alongside the
      list, so each picked file is checked in constant time. */
  method AddFiles(prev: seq<NewFile>, incoming: seq<NewFile>) returns (next: seq<NewFile>)
    ensures next == Merged(prev, incoming)
    ensures |prev| <= |next| && next[..|prev|] == prev
    ensures forall f :: f in next <==> f in prev || f in incoming
    ensures KeysDistinct(prev) ==> KeysDistinct(next)
  {
    var seen := set f | f in prev :: Key(f);
    next := prev;
    var i := 0;
    while i < |incoming|
      invariant 0 <= i <= |incoming|
      invariant seen == KeysOf(next)
      invariant Merged(next, incoming[i..]) == Merged(prev, incoming)
    {
      var f := incoming[i];
      assert incoming[i..][1..] == incoming[i + 1..];
      if Key(f) !in seen {
        KeysOfAppend(next, f);
        next := next + [f];
        seen := seen + {Key(f)};
      }
      i := i + 1;
    }
    assert incoming[i..] == [];
    MergedExtends(prev, incoming);
    MergedMembers(prev, incoming);
    if KeysDistinct(prev) {
      MergedDistinct(prev, incoming);
    }
  }

  /** `prev.filter((_, index) => index !== i)`. */
  function RemoveAt<T>(s: seq<T>, i: int): (r: seq<T>)
    ensures 0 <= i < |s| ==> r == s[..i] + s[i + 1..]
    ensures !(0 <= i < |s|) ==> r == s
    decreases |s|
  {
    if s == [] then []
    else
      var rest := RemoveAt(s[1..], i - 1);
      if i == 0 then rest
      else
        assert 0 < i < |s| ==> s[..i] == [s[0]] + s[1..][..i - 1];
        [s[0]] + rest
  }

  /** The list keeps no memory of removed files: once a file is removed,
      picking it again appends it. */
  lemma RemovedFileCanBeReadded(s: seq<NewFile>, i: int)
    requires KeysDistinct(s) && 0 <= i < |s|
    ensures Merged(RemoveAt(s, i), [s[i]]) == RemoveAt(s, i) + [s[i]]
  {
    RemovedKeyAbsent(s, i);
  }

  lemma RemovedKeyAbsent(s: seq<NewFile>, i: int)
    requires KeysDistinct(s) && 0 <= i < |s|
    ensures Key(s[i]) !in KeysOf(RemoveAt(s, i))
  {
    var r := RemoveAt(s, i);
    assert r == s[..i] + s[i + 1..];
    forall g | g in r
      ensures Key(g) != Key(s[i])
    {
      if g in s[..i] {
        var j :| 0 <= j < i && s[j] == g;
        assert Key(s[j]) != Key(s[i]);
      } else {
        assert g in s[i + 1..];
        var j :| i < j < |s| && s[j] == g;
        assert Key(s[i]) != Key(s[j]);
      }
    }
  }

  const MaxFilePreview := 3

  /** The names shown in a task row: the first three files, in order. */
  function PreviewNames(files: seq<FileInfo>): (names: seq<string>)
    ensures |names| == if |files| < MaxFilePreview then |files| else MaxFilePreview
    ensures forall i :: 0 <= i < |names| ==> names[i] == files[i].filename
  {
    var n := if |files| < MaxFilePreview then |files| else MaxFilePreview;
    seq(n, i requires 0 <= i < n => files[i].filename)
  }

  /** `renderFilePreview`: up to three names joined by commas, then
      ` +N more` for the files not shown. */
  function FilePreview(files: seq<FileInfo>): (r: string)
    ensures files == [] ==> r == ""
    ensures 0 < |files| <= MaxFilePreview ==> r == Join(PreviewNames(files), ", ")
    ensures |files| > MaxFilePreview ==>
      r == Join(PreviewNames(files), ", ") + " +" + NatToString(|files| - MaxFilePreview) + " more"
  {
    if files == [] then ""
    else
      var names := PreviewNames(files);
      var more := |files| - |names|;
      if more > 0 then Join(names, ", ") + " +" + NatToString(more) + " more"
      else Join(names, ", ")
  }

  lemma JoinStartsWithFirst(parts: seq<string>, sep: string)
    requires parts != []
    ensures parts[0] <= Join(parts, sep)
  {
  }

  lemma PrefixExtends(p: string, s: string, t: string)
    requires p <= s
    ensures p <= s + t
  {
    assert (s + t)[..|p|] == s[..|p|];
  }

  /** A row with files always shows the first file's name first. */
  lemma PreviewStartsWithFirstName(files: seq<FileInfo>)
    requires files != []
    ensures files[0].filename <= FilePreview(files)
  {
    var names := PreviewNames(files);
    var joined := Join(names, ", ");
    var r := FilePreview(files);
    JoinStartsWithFirst(names, ", ");
    assert names[0] == files[0].filename;
    if |files| > MaxFilePreview {
      var tail := " +" + NatToString(|files| - MaxFilePreview) + " more";
      assert r == joined + tail;
      PrefixExtends(names[0], joined, tail);
    } else {
      assert r == joined;
    }
  }

}

=== FILE: handlers.dfy ===
/** The stage-start handlers and their gates. Each handler takes the current
    state, whether a session token is present, and the replies of the calls
    it may make, and returns the next state, the start requests it POSTed
    (none when a gate rejects) and how it ended. */
module Handlers {
  import opened Values
  import opened Text
  import opened Status
  import opened Backend
  import opened Registry
  import opened Timers
  import opened Sessions
  import opened AppState

  /** Why a handler returned before making any call. */
  datatype Rejection =
    | NoToken
    | TaskNotFound
    | DatasetNotReady
    | DatasetPathMissing
    | NoSourceTask
    | MissingModelIds
    | MissingHfToken
    | NoTaskSelected
    | FineTuneNotSucceeded
    | GgufNotReady

  datatype Outcome =
    | Started
    | StartFailed
    | Resumed
    | Opened
    | Rejected(reason: Rejection)

  datatype Step = Step(app: App, posts: seq<Request>, outcome: Outcome)

  const DatasetStartError := "Failed to start dataset generation. Please try again."
  const FtStartError := "Failed to start fine-tuning. Please check the parameters."
  const GgufStartError := "Failed to start GGUF generation. Please try again."
  const OllamaStartError := "Failed to create Ollama model. Please try again."

  /* ------------------------------ dataset ------------------------------ */

  /** The dataset stage of `taskId` was already requested: the click only
      reopens the popup. */
  predicate DatasetAlreadyRequested(tasks: seq<Task>, taskId: TaskId)
  {
    var t := Find(tasks, taskId);
    t.Some? && t.value.datasetStatus in {Pending, Running, Succeeded}
  }

  /** The popup as hydrated from an existing record. */
  function DatasetSessionOf(t: Task): DatasetSession
  {
    DatasetSession(true, Some(t.id), t.datasetStatus, Coalesce(t.datasetError, ""), t.datasetCounters)
  }

  /** `handleGenerateDataset(taskId)`. */
  function HandleGenerateDataset(a: App, hasToken: bool, taskId: TaskId, reply: Reply<DatasetPayload>): (s: Step)
    ensures !hasToken ==> s == Step(a, [], Rejected(NoToken))
    ensures s.app.ft == a.ft && s.app.result == a.result
    ensures forall k :: k != DatasetKind ==> s.app.timers.Slot(k) == a.timers.Slot(k)
    ensures hasToken ==> s.app.dataset.isOpen && s.app.dataset.taskId == Some(taskId)
    // resume: no POST, the popup mirrors the record, polling only while in flight
    ensures hasToken && DatasetAlreadyRequested(a.tasks, taskId) ==>
      var t := Find(a.tasks, taskId).value;
      && s.posts == [] && s.outcome == Resumed && s.app.tasks == a.tasks
      && s.app.dataset == DatasetSessionOf(t)
      && s.app.timers == (if InFlight(t.datasetStatus) then Start(a.timers, DatasetKind, taskId) else a.timers)
    // new job: exactly one POST with the fixed generation parameters
    ensures hasToken && !DatasetAlreadyRequested(a.tasks, taskId) ==>
      s.posts == [StartDatasetRequest(taskId, DatasetSystemPrompt, DatasetChunkLength, DatasetMaxAttempts)]
    ensures hasToken && !DatasetAlreadyRequested(a.tasks, taskId) && reply.Ok? ==>
      && s.outcome == Started
      && s.app.tasks == UpdateWhere(a.tasks, taskId, DatasetStarted(reply.data))
      && s.app.dataset == DatasetSession(true, Some(taskId), MapStageStatus(reply.data.status),
                                         Coalesce(reply.data.error, ""), reply.data.counters)
      && s.app.timers.Slot(DatasetKind) == Some(taskId)
    ensures hasToken && !DatasetAlreadyRequested(a.tasks, taskId) && reply.Err? ==>
      && s.outcome == StartFailed
      && s.app.tasks == a.tasks
      && s.app.dataset == DatasetSession(true, Some(taskId), Failed, DatasetStartError, NoCounters)
      && s.app.timers.Slot(DatasetKind) == None
  {
    if !hasToken then Step(a, [], Rejected(NoToken))
    else if DatasetAlreadyRequested(a.tasks, taskId) then
      var t := Find(a.tasks, taskId).value;
      var timers := if InFlight(t.datasetStatus) then Start(a.timers, DatasetKind, taskId) else a.timers;
      Step(a.(dataset := DatasetSessionOf(t), timers := timers), [], Resumed)
    else
      var started := DatasetSession(true, Some(taskId), Pending, "", NoCounters);
      var request := StartDatasetRequest(taskId, DatasetSystemPrompt, DatasetChunkLength, DatasetMaxAttempts);
      match reply
      case Ok(d) =>
        var session := started.(status := MapStageStatus(d.status), error := Coalesce(d.error, ""), counters := d.counters);
        Step(a.(tasks := UpdateWhere(a.tasks, taskId, DatasetStarted(d)),
                dataset := session,
                timers := Start(a.timers, DatasetKind, taskId)),
             [request], Started)
      case Err =>
        Step(a.(dataset := started.(status := Failed, error := DatasetStartError),
                timers := Stop(a.timers, DatasetKind)),
             [request], StartFailed)
  }

  /** Clicking "generate" again while the job is in flight changes nothing
      and posts nothing. */
  lemma ResumeIsIdempotent(a: App, hasToken: bool, taskId: TaskId, r1: Reply<DatasetPayload>, r2: Reply<DatasetPayload>)
    requires hasToken && DatasetAlreadyRequested(a.tasks, taskId)
    ensures var s1 := HandleGenerateDataset(a, hasToken, taskId, r1);
      var s2 := HandleGenerateDataset(s1.app, hasToken, taskId, r2);
      s2.posts == [] && s2.app == s1.app
  {
    var t := Find(a.tasks, taskId).value;
    if InFlight(t.datasetStatus) {
      StartSupersedes(a.timers, DatasetKind, taskId, taskId);
    }
  }

  /** The client-side guard against a double start: once a start for a
      listed task has been accepted with a pending, running or succeeded
      status, clicking again issues no further POST. */
  lemma SecondClickDoesNotRepost(a: App, taskId: TaskId, r1: Reply<DatasetPayload>, r2: Reply<DatasetPayload>)
    requires HasId(a.tasks, taskId) && !DatasetAlreadyRequested(a.tasks, taskId)
    requires r1.Ok? && MapStageStatus(r1.data.status) in {Pending, Running, Succeeded}
    ensures var s1 := HandleGenerateDataset(a, true, taskId, r1);
      HandleGenerateDataset(s1.app, true, taskId, r2).posts == []
  {
    var s1 := HandleGenerateDataset(a, true, taskId, r1);
    FindAfterUpdate(a.tasks, taskId, DatasetStarted(r1.data));
    assert DatasetAlreadyRequested(s1.app.tasks, taskId);
  }

  /* ----------------------------- fine-tune ----------------------------- */

  /** The fine-tune gate on a dataset task: its dataset succeeded and a
      dataset path is recorded. */
  predicate DatasetUsable(t: Task)
  {
    t.datasetStatus == Succeeded && Truthy(t.datasetPath)
  }

  /** The fine-tuning popup as `handleRunFineTune` opens it. */
  function FreshFtSession(taskId: TaskId): FtSession
  {
    FtSession(true, Some(taskId), None, Idle, "", "google/gemma-3-270m-it", "", 1, 4, 2048, "", "", NoFtProgress)
  }

  /** `handleRunFineTune(taskId)`: opens the fine-tuning form only for a task
      whose dataset is usable; it never posts. */
  function HandleRunFineTune(a: App, taskId: TaskId): (s: Step)
    ensures s.posts == []
    ensures s.outcome == Opened <==> Find(a.tasks, taskId).Some? && DatasetUsable(Find(a.tasks, taskId).value)
    ensures s.outcome == Opened ==> s.app == a.(ft := FreshFtSession(taskId))
    ensures s.outcome != Opened ==> s.app == a && s.outcome.Rejected?
    ensures !HasId(a.tasks, taskId) ==> s.outcome == Rejected(TaskNotFound)
  {
    match Find(a.tasks, taskId)
    case None => Step(a, [], Rejected(TaskNotFound))
    case Some(t) =>
      if t.datasetStatus != Succeeded then Step(a, [], Rejected(DatasetNotReady))
      else if !Truthy(t.datasetPath) then Step(a, [], Rejected(DatasetPathMissing))
      else Step(a.(ft := FreshFtSession(taskId)), [], Opened)
  }

  /** Every gate `handleStartFineTune` checks before it posts. */
  predicate FineTuneStartAllowed(a: App, hasToken: bool)
  {
    && hasToken
    && Truthy(a.ft.sourceTaskId)
    && Find(a.tasks, a.ft.sourceTaskId.value).Some?
    && DatasetUsable(Find(a.tasks, a.ft.sourceTaskId.value).value)
    && !IsBlank(a.ft.baseModel) && !IsBlank(a.ft.hubModelId)
    && !IsBlank(a.ft.hfToken)
  }

  /** The body `handleStartFineTune` posts to `/tasks`. */
  function FineTuneRequest(f: FtSession): Request
    requires f.sourceTaskId.Some?
  {
    var src := f.sourceTaskId.value;
    StartFineTuneRequest(src, Trim(f.baseModel), Trim(f.hubModelId), f.numTrainEpochs,
      f.perDeviceTrainBatchSize, f.maxLength, "FT from dataset task " + src, Trim(f.hfToken))
  }

  /** `handleStartFineTune`: after the gates, one POST; on success the popup
      follows the new fine-tune task, the list is reloaded and polling
      starts for that task; on failure the popup shows the error and the
      fine-tune timer is stopped. */
  function HandleStartFineTune(
    a: App, hasToken: bool, postReply: Reply<TaskId>,
    listReply: Reply<Option<seq<TaskSnapshot>>>, now: string): (s: Step)
    ensures s.posts == [] <==> !FineTuneStartAllowed(a, hasToken)
    ensures s.posts == [] ==> s.app == a && s.outcome.Rejected?
    ensures FineTuneStartAllowed(a, hasToken) ==>
      && s.posts == [FineTuneRequest(a.ft)]
      && s.app.dataset == a.dataset && s.app.result == a.result
      && forall k :: k != FineTuneKind ==> s.app.timers.Slot(k) == a.timers.Slot(k)
    ensures FineTuneStartAllowed(a, hasToken) && postReply.Ok? ==>
      && s.outcome == Started
      && s.app.ft == a.ft.(ftTaskId := Some(postReply.data), status := Running, error := "")
      && s.app.tasks == Refresh(a.tasks, true, listReply, now)
      && s.app.timers.Slot(FineTuneKind) == Some(postReply.data)
    ensures FineTuneStartAllowed(a, hasToken) && postReply.Err? ==>
      && s.outcome == StartFailed
      && s.app.tasks == a.tasks
      && s.app.ft == a.ft.(status := Failed, error := FtStartError)
      && s.app.timers.Slot(FineTuneKind) == None
  {
    if !hasToken then Step(a, [], Rejected(NoToken))
    else if !Truthy(a.ft.sourceTaskId) then Step(a, [], Rejected(NoSourceTask))
    else
      var src := Find(a.tasks, a.ft.sourceTaskId.value);
      if src.None? || !DatasetUsable(src.value) then Step(a, [], Rejected(DatasetNotReady))
      else if IsBlank(a.ft.baseModel) || IsBlank(a.ft.hubModelId) then Step(a, [], Rejected(MissingModelIds))
      else if IsBlank(a.ft.hfToken) then Step(a, [], Rejected(MissingHfToken))
      else
        var request := FineTuneRequest(a.ft);
        match postReply
        case Ok(newId) =>
          Step(a.(ft := a.ft.(ftTaskId := Some(newId), status := Running, error := ""),
                  tasks := Refresh(a.tasks, true, listReply, now),
                  timers := Start(a.timers, FineTuneKind, newId)),
               [request], Started)
        case Err =>
          Step(a.(ft := a.ft.(status := Failed, error := FtStartError),
                  timers := Stop(a.timers, FineTuneKind)),
               [request], StartFailed)
  }

  /* ------------------------- quantize and deploy ------------------------ */

  /** The quantization method sent: the trimmed input, or `q4_k_m` when the
      input is blank. */
  function QuantizationOrDefault(input: string): (r: string)
    ensures r != [] && !IsSpace(r[0]) && !IsSpace(r[|r| - 1])
    ensures !IsBlank(input) ==> r == Trim(input)
    ensures IsBlank(input) ==> r == DefaultQuantization
  {
    if IsBlank(input) then DefaultQuantization else Trim(input)
  }

  /** The suggested Ollama model name: the recorded one, else the slug of
      the task name, else `ft-model-<id>`; never empty. */
  function DefaultModelName(t: Task, taskId: TaskId): (r: string)
    ensures r != ""
    ensures Truthy(t.ollamaModelName) ==> r == t.ollamaModelName.value
    ensures !Truthy(t.ollamaModelName) && Slug(t.name) != "" ==> r == Slug(t.name) && IsSlug(r)
    ensures !Truthy(t.ollamaModelName) && Slug(t.name) == "" ==> r == "ft-model-" + taskId
  {
    OrElse(t.ollamaModelName, OrElse(Some(Slug(t.name)), "ft-model-" + taskId))
  }

  /** The model name sent: the trimmed input, else the suggestion. */
  function OllamaModelName(input: string, t: Task, taskId: TaskId): (r: string)
    ensures r != ""
    ensures !IsBlank(input) ==> r == Trim(input)
    ensures IsBlank(input) ==> r == DefaultModelName(t, taskId)
  {
    if IsBlank(input) then DefaultModelName(t, taskId) else Trim(input)
  }

  /** The gate `handleStartGguf` checks: a task is selected, a token is
      present and the task's fine-tune succeeded. */
  predicate GgufStartAllowed(a: App, hasToken: bool)
  {
    && Truthy(a.result.taskId)
    && hasToken
    && Find(a.tasks, a.result.taskId.value).Some?
    && Find(a.tasks, a.result.taskId.value).value.ftStatus == Succeeded
  }

  /** `handleStartGguf`: one POST after the gate; polling starts only when
      the reply says the job is pending or running; a failed call marks the
      GGUF stage failed in the popup and leaves the timer alone. */
  function HandleStartGguf(a: App, hasToken: bool, reply: Reply<GgufPayload>): (s: Step)
    ensures s.posts == [] <==> !GgufStartAllowed(a, hasToken)
    ensures s.posts == [] ==> s.app == a && s.outcome.Rejected?
    ensures a.result.taskId.Some? && !Truthy(a.result.taskId) ==> s.outcome == Rejected(NoTaskSelected)
    ensures GgufStartAllowed(a, hasToken) ==>
      var id := a.result.taskId.value;
      var q := QuantizationOrDefault(a.result.quantizationMethod);
      && s.posts == [StartGgufRequest(id, q)]
      && s.app.dataset == a.dataset && s.app.ft == a.ft
      && s.app.result.isOpen == a.result.isOpen && s.app.result.taskId == a.result.taskId
      && (forall k :: k != GgufKind ==> s.app.timers.Slot(k) == a.timers.Slot(k))
      && (reply.Ok? ==>
            var st := MapStageStatus(reply.data.status);
            && s.outcome == Started
            && s.app.tasks == UpdateWhere(a.tasks, id, GgufStarted(reply.data, q))
            && s.app.result == a.result.(ggufStatus := st,
                                         ggufQuantization := Coalesce(reply.data.quantization, q),
                                         ggufPath := Coalesce(reply.data.path, ""),
                                         ggufError := Coalesce(reply.data.error, ""))
            && s.app.timers.Slot(GgufKind) == (if InFlight(st) then Some(id) else a.timers.Slot(GgufKind)))
      && (reply.Err? ==>
            && s.outcome == StartFailed
            && s.app == a.(result := a.result.(ggufStatus := Failed, ggufError := GgufStartError)))
  {
    if !Truthy(a.result.taskId) then Step(a, [], Rejected(NoTaskSelected))
    else if !hasToken then Step(a, [], Rejected(NoToken))
    else
      var id := a.result.taskId.value;
      var task := Find(a.tasks, id);
      if task.None? || task.value.ftStatus != Succeeded then Step(a, [], Rejected(FineTuneNotSucceeded))
      else
        var q := QuantizationOrDefault(a.result.quantizationMethod);
        var request := StartGgufRequest(id, q);
        match reply
        case Ok(g) =>
          var st := MapStageStatus(g.status);
          Step(a.(tasks := UpdateWhere(a.tasks, id, GgufStarted(g, q)),
                  result := a.result.(ggufStatus := st,
                                      ggufQuantization := Coalesce(g.quantization, q),
                                      ggufPath := Coalesce(g.path, ""),
                                      ggufError := Coalesce(g.error, "")),
                  timers := if InFlight(st) then Start(a.timers, GgufKind, id) else a.timers),
               [request], Started)
        case Err =>
          Step(a.(result := a.result.(ggufStatus := Failed, ggufError := GgufStartError)), [request], StartFailed)
  }

  /** The gate `handleStartOllama` checks: a task is selected, a token is
      present and the task's GGUF file is ready. */
  predicate OllamaStartAllowed(a: App, hasToken: bool)
  {
    && Truthy(a.result.taskId)
    && hasToken
    && Find(a.tasks, a.result.taskId.value).Some?
    && Find(a.tasks, a.result.taskId.value).value.ggufStatus == Succeeded
  }

  /** The body `handleStartOllama` posts. */
  function OllamaRequest(a: App): Request
    requires OllamaStartAllowed(a, true)
  {
    var id := a.result.taskId.value;
    var t := Find(a.tasks, id).value;
    StartOllamaRequest(id, OllamaModelName(a.result.ollamaModelNameInput, t, id), a.result.ollamaSystemPrompt,
      a.result.ollamaPushToRegistry, a.result.ollamaRegistryModelName, a.result.ollamaApiKey)
  }

  /** `handleStartOllama`: one POST after the gate, with a model name that is
      never empty; polling starts only for a pending or running reply. */
  function HandleStartOllama(a: App, hasToken: bool, reply: Reply<OllamaPayload>): (s: Step)
    ensures s.posts == [] <==> !OllamaStartAllowed(a, hasToken)
    ensures s.posts == [] ==> s.app == a && s.outcome.Rejected?
    ensures OllamaStartAllowed(a, hasToken) ==>
      var id := a.result.taskId.value;
      && s.posts == [OllamaRequest(a)]
      && s.posts[0].modelName != ""
      && s.app.dataset == a.dataset && s.app.ft == a.ft
      && s.app.result.isOpen == a.result.isOpen && s.app.result.taskId == a.result.taskId
      && (forall k :: k != OllamaKind ==> s.app.timers.Slot(k) == a.timers.Slot(k))
      && (reply.Ok? ==>
            var st := MapStageStatus(reply.data.status);
            && s.outcome == Started
            && s.app.tasks == UpdateWhere(a.tasks, id, OllamaStarted(reply.data, s.posts[0].modelName))
            && s.app.result == a.result.(ollamaStatus := st,
                                         ollamaModelName := Coalesce(reply.data.modelName, s.posts[0].modelName),
                                         ollamaError := Coalesce(reply.data.error, ""))
            && s.app.timers.Slot(OllamaKind) == (if InFlight(st) then Some(id) else a.timers.Slot(OllamaKind)))
      && (reply.Err? ==>
            && s.outcome == StartFailed
            && s.app == a.(result := a.result.(ollamaStatus := Failed, ollamaError := OllamaStartError)))
  {
    if !Truthy(a.result.taskId) then Step(a, [], Rejected(NoTaskSelected))
    else if !hasToken then Step(a, [], Rejected(NoToken))
    else
      var id := a.result.taskId.value;
      var task := Find(a.tasks, id);
      if task.None? || task.value.ggufStatus != Succeeded then Step(a, [], Rejected(GgufNotReady))
      else
        var request := OllamaRequest(a);
        var name := request.modelName;
        match reply
        case Ok(o) =>
          var st := MapStageStatus(o.status);
          Step(a.(tasks := UpdateWhere(a.tasks, id, OllamaStarted(o, name)),
                  result := a.result.(ollamaStatus := st,
                                      ollamaModelName := Coalesce(o.modelName, name),
                                      ollamaError := Coalesce(o.error, "")),
                  timers := if InFlight(st) then Start(a.timers, OllamaKind, id) else a.timers),
               [request], Started)
        case Err =>
          Step(a.(result := a.result.(ollamaStatus := Failed, ollamaError := OllamaStartError)), [request], StartFailed)
  }

  /** `handleViewResult(taskId)`: opens the result popup from the record and
      resumes polling for whichever of GGUF and Ollama is in flight. */
  function HandleViewResult(a: App, taskId: TaskId): (s: Step)
    ensures s.posts == []
    ensures !HasId(a.tasks, taskId) ==> s == Step(a, [], Rejected(TaskNotFound))
    ensures HasId(a.tasks, taskId) ==>
      var t := Find(a.tasks, taskId).value;
      && s.outcome == Opened
      && s.app.tasks == a.tasks && s.app.dataset == a.dataset && s.app.ft == a.ft
      // the popup is hydrated from the record; only the quantization input
      // keeps the previous value, when the record has no quantization
      && s.app.result == a.result.(
           isOpen := true,
           taskId := Some(taskId),
           hfRepoId := Coalesce(t.hfRepoId, ""),
           ggufStatus := t.ggufStatus,
           ggufQuantization := Coalesce(t.ggufQuantization, ""),
           ggufPath := Coalesce(t.ggufPath, ""),
           ggufError := "",
           ollamaStatus := t.ollamaStatus,
           ollamaModelName := Coalesce(t.ollamaModelName, ""),
           ollamaError := "",
           quantizationMethod := if Truthy(t.ggufQuantization) then t.ggufQuantization.value
                                 else a.result.quantizationMethod,
           ollamaModelNameInput := DefaultModelName(t, taskId))
      && s.app.timers.Slot(GgufKind) == (if InFlight(t.ggufStatus) then Some(taskId) else a.timers.Slot(GgufKind))
      && s.app.timers.Slot(OllamaKind) == (if InFlight(t.ollamaStatus) then Some(taskId) else a.timers.Slot(OllamaKind))
      && s.app.timers.Slot(DatasetKind) == a.timers.Slot(DatasetKind)
      && s.app.timers.Slot(FineTuneKind) == a.timers.Slot(FineTuneKind)
  {
    match Find(a.tasks, taskId)
    case None => Step(a, [], Rejected(TaskNotFound))
    case Some(t) =>
      var result := a.result.(
        isOpen := true,
        taskId := Some(taskId),
        hfRepoId := Coalesce(t.hfRepoId, ""),
        ggufStatus := t.ggufStatus,
        ggufQuantization := Coalesce(t.ggufQuantization, ""),
        ggufPath := Coalesce(t.ggufPath, ""),
        ggufError := "",
        ollamaStatus := t.ollamaStatus,
        ollamaModelName := Coalesce(t.ollamaModelName, ""),
        ollamaError := "",
        quantizationMethod := if Truthy(t.ggufQuantization) then t.ggufQuantization.value else a.result.quantizationMethod,
        ollamaModelNameInput := DefaultModelName(t, taskId));
      var timers1 := if InFlight(t.ggufStatus) then Start(a.timers, GgufKind, taskId) else a.timers;
      var timers2 := if InFlight(t.ollamaStatus) then Start(timers1, OllamaKind, taskId) else timers1;
      Step(a.(result := result, timers := timers2), [], Opened)
  }
}

=== FILE: machine.dfy ===
/** The dashboard as one state machine: every user action and every timer
    firing is a step, and the invariant that ties each running timer to the
    open popup of its stage holds in every reachable state. */
module Dashboard {
  import opened Values
  import opened Status
  import opened Backend
  import opened Registry
  import opened Timers
  import opened Sessions
  import opened AppState
  import opened Polling
  import opened Handlers

  datatype Action =
    | GenerateDataset(taskId: TaskId, datasetReply: Reply<DatasetPayload>)
    | RunFineTune(taskId: TaskId)
    | StartFineTune(postReply: Reply<TaskId>, listReply: Reply<Option<seq<TaskSnapshot>>>, now: string)
    | StartGguf(ggufReply: Reply<GgufPayload>)
    | StartOllama(ollamaReply: Reply<OllamaPayload>)
    | ViewResult(taskId: TaskId)
    | CloseDataset
    | CloseFineTune
    | CloseResult
    | TimerFires(event: PollEvent)
    | LoadTasks(tasksReply: Reply<Option<seq<TaskSnapshot>>>, loadedAt: string)
    | Teardown

  predicate NoPopupOpen(a: App)
  {
    !a.dataset.isOpen && !a.ft.isOpen && !a.result.isOpen
  }

  /** What the screen offers: the task-list buttons while no popup covers
      the list, a popup's own buttons while that popup is open; timers,
      reloads and unmount at any time. */
  predicate Enabled(a: App, act: Action)
  {
    match act
    case GenerateDataset(_, _) => NoPopupOpen(a)
    case RunFineTune(_) => NoPopupOpen(a)
    case ViewResult(_) => NoPopupOpen(a)
    case StartFineTune(_, _, _) => a.ft.isOpen
    case CloseFineTune => a.ft.isOpen
    case StartGguf(_) => a.result.isOpen
    case StartOllama(_) => a.result.isOpen
    case CloseResult => a.result.isOpen
    case CloseDataset => a.dataset.isOpen
    case TimerFires(_) => true
    case LoadTasks(_, _) => true
    case Teardown => true
  }

  /** One step of the dashboard. */
  function Next(a: App, hasToken: bool, act: Action): App
  {
    match act
    case GenerateDataset(id, reply) => HandleGenerateDataset(a, hasToken, id, reply).app
    case RunFineTune(id) => HandleRunFineTune(a, id).app
    case StartFineTune(post, list, now) => HandleStartFineTune(a, hasToken, post, list, now).app
    case StartGguf(reply) => HandleStartGguf(a, hasToken, reply).app
    case StartOllama(reply) => HandleStartOllama(a, hasToken, reply).app
    case ViewResult(id) => HandleViewResult(a, id).app
    case CloseDataset => CloseDatasetPopup(a)
    case CloseFineTune => CloseFtPopup(a)
    case CloseResult => CloseResultPopup(a)
    case TimerFires(e) => Tick(a, hasToken, e)
    case LoadTasks(reply, now) => a.(tasks := Refresh(a.tasks, hasToken, reply, now))
    case Teardown => Unmount(a)
  }

  /** The task the popup of stage `k` shows, if that popup is open. */
  function PopupTask(a: App, k: StageKind): Option<TaskId>
  {
    match k
    case DatasetKind => if a.dataset.isOpen then a.dataset.taskId else None
    case FineTuneKind => if a.ft.isOpen then a.ft.ftTaskId else None
    case GgufKind => if a.result.isOpen then a.result.taskId else None
    case OllamaKind => if a.result.isOpen then a.result.taskId else None
  }

  /** Every running timer polls the task whose popup is open for its stage. */
  predicate Coherent(a: App)
  {
    forall k :: a.timers.Slot(k).Some? ==> a.timers.Slot(k) == PopupTask(a, k)
  }

  lemma InitialCoherent()
    ensures Coherent(InitialApp)
  {
  }

  /** A timer firing leaves the popups' open flags and bindings alone, and its
      slot can only stay or clear. */
  lemma TickKeepsCoherent(a: App, hasToken: bool, e: PollEvent)
    requires Coherent(a)
    ensures Coherent(Tick(a, hasToken, e))
  {
    var r := Tick(a, hasToken, e);
    TickKeepsBindings(a, hasToken, e);
    forall k
      ensures r.timers.Slot(k).Some? ==> r.timers.Slot(k) == PopupTask(r, k)
    {
      assert PopupTask(r, k) == PopupTask(a, k);
    }
  }

  /** A poll reply moves popup contents, never which popup is open or which
      task it shows. */
  lemma TickKeepsBindings(a: App, hasToken: bool, e: PollEvent)
    ensures var r := Tick(a, hasToken, e);
      && r.dataset.isOpen == a.dataset.isOpen && r.dataset.taskId == a.dataset.taskId
      && r.ft.isOpen == a.ft.isOpen && r.ft.ftTaskId == a.ft.ftTaskId
      && r.result.isOpen == a.result.isOpen && r.result.taskId == a.result.taskId
  {
    match a.timers.Slot(KindOf(e))
    case None =>
    case Some(id) =>
      if hasToken && ReplyStatus(e).Some? {
        var r := Merge(a, id, e);
        assert r.dataset == DatasetView(a.dataset, id, e);
        assert r.ft == FtView(a.ft, id, e);
        assert r.result == ResultView(a.result, id, e);
      }
  }

  /** Every enabled step keeps the invariant. */
  lemma {:induction false} NextKeepsCoherent(a: App, hasToken: bool, act: Action)
    requires Coherent(a) && Enabled(a, act)
    ensures Coherent(Next(a, hasToken, act))
  {
    match act
    case TimerFires(e) => TickKeepsCoherent(a, hasToken, e);
    case GenerateDataset(id, reply) => GenerateDatasetKeepsCoherent(a, hasToken, id, reply);
    case RunFineTune(id) => RunFineTuneKeepsCoherent(a, id);
    case ViewResult(id) => ViewResultKeepsCoherent(a, id);
    case StartFineTune(post, list, now) => StartFineTuneKeepsCoherent(a, hasToken, post, list, now);
    case StartGguf(reply) => StartGgufKeepsCoherent(a, hasToken, reply);
    case StartOllama(reply) => StartOllamaKeepsCoherent(a, hasToken, reply);
    case CloseDataset => CloseKeepsCoherent(a, CloseDatasetPopup(a));
    case CloseFineTune => CloseKeepsCoherent(a, CloseFtPopup(a));
    case CloseResult => CloseKeepsCoherent(a, CloseResultPopup(a));
    case LoadTasks(reply, now) => CloseKeepsCoherent(a, a.(tasks := Refresh(a.tasks, hasToken, reply, now)));
    case Teardown => CloseKeepsCoherent(a, Unmount(a));
  }

  /** A step that only empties slots and touches no popup binding of a
      running slot keeps the invariant. */
  lemma CloseKeepsCoherent(a: App, r: App)
    requires Coherent(a)
    requires forall k :: r.timers.Slot(k).None? || (r.timers.Slot(k) == a.timers.Slot(k) && PopupTask(r, k) == PopupTask(a, k))
    ensures Coherent(r)
  {
  }

  lemma GenerateDatasetKeepsCoherent(a: App, hasToken: bool, id: TaskId, reply: Reply<DatasetPayload>)
    requires Coherent(a) && NoPopupOpen(a)
    ensures Coherent(HandleGenerateDataset(a, hasToken, id, reply).app)
  {
    var r := HandleGenerateDataset(a, hasToken, id, reply).app;
    forall k | r.timers.Slot(k).Some?
      ensures r.timers.Slot(k) == PopupTask(r, k)
    {
      assert a.timers.Slot(k).Some? ==> a.timers.Slot(k) == PopupTask(a, k);
    }
  }

  lemma RunFineTuneKeepsCoherent(a: App, id: TaskId)
    requires Coherent(a) && NoPopupOpen(a)
    ensures Coherent(HandleRunFineTune(a, id).app)
  {
    var r := HandleRunFineTune(a, id).app;
    forall k | r.timers.Slot(k).Some?
      ensures r.timers.Slot(k) == PopupTask(r, k)
    {
      assert a.timers.Slot(k).Some? ==> a.timers.Slot(k) == PopupTask(a, k);
    }
  }

  lemma ViewResultKeepsCoherent(a: App, id: TaskId)
    requires Coherent(a) && NoPopupOpen(a)
    ensures Coherent(HandleViewResult(a, id).app)
  {
    var r := HandleViewResult(a, id).app;
    if HasId(a.tasks, id) {
      var t := Find(a.tasks, id).value;
      assert r.dataset == a.dataset && r.ft == a.ft;
      assert r.result.isOpen && r.result.taskId == Some(id);
      assert r.timers.Slot(GgufKind) == (if InFlight(t.ggufStatus) then Some(id) else a.timers.Slot(GgufKind));
      assert r.timers.Slot(OllamaKind) == (if InFlight(t.ollamaStatus) then Some(id) else a.timers.Slot(OllamaKind));
      assert r.timers.Slot(DatasetKind) == a.timers.Slot(DatasetKind);
      assert r.timers.Slot(FineTuneKind) == a.timers.Slot(FineTuneKind);
    }
    forall k | r.timers.Slot(k).Some?
      ensures r.timers.Slot(k) == PopupTask(r, k)
    {
      assert a.timers.Slot(k).Some? ==> a.timers.Slot(k) == PopupTask(a, k);
    }
  }

  lemma StartFineTuneKeepsCoherent(
    a: App, hasToken: bool, post: Reply<TaskId>, list: Reply<Option<seq<TaskSnapshot>>>, now: string)
    requires Coherent(a) && a.ft.isOpen
    ensures Coherent(HandleStartFineTune(a, hasToken, post, list, now).app)
  {
    var r := HandleStartFineTune(a, hasToken, post, list, now).app;
    forall k | r.timers.Slot(k).Some?
      ensures r.timers.Slot(k) == PopupTask(r, k)
    {
      assert a.timers.Slot(k).Some? ==> a.timers.Slot(k) == PopupTask(a, k);
    }
  }

  lemma StartGgufKeepsCoherent(a: App, hasToken: bool, reply: Reply<GgufPayload>)
    requires Coherent(a) && a.result.isOpen
    ensures Coherent(HandleStartGguf(a, hasToken, reply).app)
  {
    var r := HandleStartGguf(a, hasToken, reply).app;
    forall k | r.timers.Slot(k).Some?
      ensures r.timers.Slot(k) == PopupTask(r, k)
    {
      assert a.timers.Slot(k).Some? ==> a.timers.Slot(k) == PopupTask(a, k);
    }
  }

  lemma StartOllamaKeepsCoherent(a: App, hasToken: bool, reply: Reply<OllamaPayload>)
    requires Coherent(a) && a.result.isOpen
    ensures Coherent(HandleStartOllama(a, hasToken, reply).app)
  {
    var r := HandleStartOllama(a, hasToken, reply).app;
    forall k | r.timers.Slot(k).Some?
      ensures r.timers.Slot(k) == PopupTask(r, k)
    {
      assert a.timers.Slot(k).Some? ==> a.timers.Slot(k) == PopupTask(a, k);
    }
  }

  /** With the invariant, a timer whose popup is closed has nothing to do:
      closing a popup silences its stage for good. */
  lemma ClosedPopupIsSilent(a: App, hasToken: bool, e: PollEvent)
    requires Coherent(a) && PopupTask(a, KindOf(e)).None?
    ensures Tick(a, hasToken, e) == a
  {
    assert a.timers.Slot(KindOf(e)).Some? ==> a.timers.Slot(KindOf(e)) == PopupTask(a, KindOf(e));
  }

  /** One input to the dashboard: whether a token is stored at that moment,
      and what happened. */
  datatype Event = Event(hasToken: bool, act: Action)

  /** A sequence of events; an action whose control is not on screen has no
      effect. */
  function Run(a: App, events: seq<Event>): App
    decreases |events|
  {
    if events == [] then a
    else
      var e := events[0];
      Run(if Enabled(a, e.act) then Next(a, e.hasToken, e.act) else a, events[1..])
  }

  /** Every state reachable from mount is coherent. */
  lemma {:induction false} RunKeepsCoherent(a: App, events: seq<Event>)
    requires Coherent(a)
    ensures Coherent(Run(a, events))
    decreases |events|
  {
    if events != [] {
      var e := events[0];
      if Enabled(a, e.act) {
        NextKeepsCoherent(a, e.hasToken, e.act);
      }
      RunKeepsCoherent(if Enabled(a, e.act) then Next(a, e.hasToken, e.act) else a, events[1..]);
    }
  }

  lemma ReachableIsCoherent(events: seq<Event>)
    ensures Coherent(Run(InitialApp, events))
  {
    InitialCoherent();
    RunKeepsCoherent(InitialApp, events);
  }
}

=== FILE: polling.dfy ===
/** The four polling controllers. A tick of stage `k` fires only while the
    slot of `k` holds a task id, fetches that task's status once
    (`fetch*Status`), merges the reply into the registry and, when the popup
    is still bound to that id, into the popup; a terminal status stops the
    controller, and a missing token or a failed call changes nothing. */
module Polling {
  import opened Values
  import opened Status
  import opened Backend
  import opened Registry
  import opened Timers
  import opened Sessions
  import opened AppState

  /** `r` differs from `a` only in records whose id is `id`; length, order
      and ids are kept. */
  predicate OnlyTouches(a: seq<Task>, r: seq<Task>, id: TaskId)
  {
    && |r| == |a|
    && (forall i :: 0 <= i < |a| ==> r[i].id == a[i].id)
    && (forall i :: 0 <= i < |a| && a[i].id != id ==> r[i] == a[i])
  }

  /** The slot of `k` after a tick whose reply mapped to `st`: emptied on a
      terminal status, untouched otherwise. */
  predicate SlotAfter(a: Timers, r: Timers, k: StageKind, st: StageStatus)
  {
    && r.Slot(k) == (if IsTerminal(st) then None else a.Slot(k))
    && forall j :: j != k ==> r.Slot(j) == a.Slot(j)
  }

  /** `fetchDatasetStatus(id)`. */
  function FetchDatasetStatus(a: App, id: TaskId, hasToken: bool, reply: Reply<DatasetPayload>): (r: App)
    ensures !hasToken || reply.Err? ==> r == a
    ensures OnlyTouches(a.tasks, r.tasks, id)
    ensures !HasId(a.tasks, id) ==> r.tasks == a.tasks
    ensures hasToken && reply.Ok? ==> r.tasks == UpdateWhere(a.tasks, id, DatasetPolled(reply.data))
    ensures hasToken && reply.Ok? ==>
      forall i :: 0 <= i < |a.tasks| && a.tasks[i].id == id ==>
        && r.tasks[i].datasetStatus == MapStageStatus(reply.data.status)
        && r.tasks[i].datasetCounters == reply.data.counters
        && r.tasks[i].datasetError == reply.data.error
        && r.tasks[i].datasetPath == (if reply.data.path.None? then a.tasks[i].datasetPath else reply.data.path)
        && AgreeOutside(DatasetKind, a.tasks[i], r.tasks[i])
    ensures a.dataset.taskId != Some(id) ==> r.dataset == a.dataset
    ensures hasToken && reply.Ok? && a.dataset.taskId == Some(id) ==>
      r.dataset == a.dataset.(status := MapStageStatus(reply.data.status),
                              error := Coalesce(reply.data.error, ""),
                              counters := reply.data.counters)
    ensures r.ft == a.ft && r.result == a.result
    ensures hasToken && reply.Ok? ==> SlotAfter(a.timers, r.timers, DatasetKind, MapStageStatus(reply.data.status))
  {
    if !hasToken || reply.Err? then a else Merge(a, id, DatasetPoll(reply))
  }

  /** `fetchFtStatus(id)`; the popup is matched on the fine-tune task id. */
  function FetchFtStatus(a: App, id: TaskId, hasToken: bool, reply: Reply<FtPayload>): (r: App)
    ensures !hasToken || reply.Err? ==> r == a
    ensures OnlyTouches(a.tasks, r.tasks, id)
    ensures !HasId(a.tasks, id) ==> r.tasks == a.tasks
    ensures hasToken && reply.Ok? ==> r.tasks == UpdateWhere(a.tasks, id, FtPolled(reply.data))
    ensures hasToken && reply.Ok? ==>
      forall i :: 0 <= i < |a.tasks| && a.tasks[i].id == id ==>
        && r.tasks[i].ftStatus == MapStageStatus(reply.data.status)
        && r.tasks[i].ftProgress == reply.data.progress
        && r.tasks[i].ftLastMessage == reply.data.lastMessage
        && r.tasks[i].ftError == a.tasks[i].ftError
        && AgreeOutside(FineTuneKind, a.tasks[i], r.tasks[i])
    ensures a.ft.ftTaskId != Some(id) ==> r.ft == a.ft
    ensures hasToken && reply.Ok? && a.ft.ftTaskId == Some(id) ==>
      r.ft == a.ft.(status := MapStageStatus(reply.data.status),
                    progress := reply.data.progress,
                    lastMessage := Coalesce(reply.data.lastMessage, ""))
    ensures r.dataset == a.dataset && r.result == a.result
    ensures hasToken && reply.Ok? ==> SlotAfter(a.timers, r.timers, FineTuneKind, MapStageStatus(reply.data.status))
  {
    if !hasToken || reply.Err? then a else Merge(a, id, FtPoll(reply))
  }

  /** `fetchGgufStatus(id)`: only the GGUF half of the result popup moves. */
  function FetchGgufStatus(a: App, id: TaskId, hasToken: bool, reply: Reply<GgufPayload>): (r: App)
    ensures !hasToken || reply.Err? ==> r == a
    ensures OnlyTouches(a.tasks, r.tasks, id)
    ensures !HasId(a.tasks, id) ==> r.tasks == a.tasks
    ensures hasToken && reply.Ok? ==> r.tasks == UpdateWhere(a.tasks, id, GgufPolled(reply.data))
    ensures hasToken && reply.Ok? ==>
      forall i :: 0 <= i < |a.tasks| && a.tasks[i].id == id ==>
        && r.tasks[i].ggufStatus == MapStageStatus(reply.data.status)
        && r.tasks[i].ggufQuantization == reply.data.quantization
        && r.tasks[i].ggufPath == reply.data.path
        && AgreeOutside(GgufKind, a.tasks[i], r.tasks[i])
    ensures a.result.taskId != Some(id) ==> r.result == a.result
    ensures hasToken && reply.Ok? && a.result.taskId == Some(id) ==>
      r.result == a.result.(ggufStatus := MapStageStatus(reply.data.status),
                            ggufQuantization := Coalesce(reply.data.quantization, ""),
                            ggufPath := Coalesce(reply.data.path, ""),
                            ggufError := Coalesce(reply.data.error, ""))
    ensures r.dataset == a.dataset && r.ft == a.ft
    ensures hasToken && reply.Ok? ==> SlotAfter(a.timers, r.timers, GgufKind, MapStageStatus(reply.data.status))
  {
    if !hasToken || reply.Err? then a else Merge(a, id, GgufPoll(reply))
  }

  /** `fetchOllamaStatus(id)`: only the Ollama half of the result popup moves. */
  function FetchOllamaStatus(a: App, id: TaskId, hasToken: bool, reply: Reply<OllamaPayload>): (r: App)
    ensures !hasToken || reply.Err? ==> r == a
    ensures OnlyTouches(a.tasks, r.tasks, id)
    ensures !HasId(a.tasks, id) ==> r.tasks == a.tasks
    ensures hasToken && reply.Ok? ==> r.tasks == UpdateWhere(a.tasks, id, OllamaPolled(reply.data))
    ensures hasToken && reply.Ok? ==>
      forall i :: 0 <= i < |a.tasks| && a.tasks[i].id == id ==>
        && r.tasks[i].ollamaStatus == MapStageStatus(reply.data.status)
        && r.tasks[i].ollamaModelName == reply.data.modelName
        && AgreeOutside(OllamaKind, a.tasks[i], r.tasks[i])
    ensures a.result.taskId != Some(id) ==> r.result == a.result
    ensures hasToken && reply.Ok? && a.result.taskId == Some(id) ==>
      r.result == a.result.(ollamaStatus := MapStageStatus(reply.data.status),
                            ollamaModelName := Coalesce(reply.data.modelName, ""),
                            ollamaError := Coalesce(reply.data.error, ""))
    ensures r.dataset == a.dataset && r.ft == a.ft
    ensures hasToken && reply.Ok? ==> SlotAfter(a.timers, r.timers, OllamaKind, MapStageStatus(reply.data.status))
  {
    if !hasToken || reply.Err? then a else Merge(a, id, OllamaPoll(reply))
  }

  /** The reply one tick of one controller receives. */
  datatype PollEvent =
    | DatasetPoll(datasetReply: Reply<DatasetPayload>)
    | FtPoll(ftReply: Reply<FtPayload>)
    | GgufPoll(ggufReply: Reply<GgufPayload>)
    | OllamaPoll(ollamaReply: Reply<OllamaPayload>)

  function KindOf(e: PollEvent): StageKind
  {
    match e
    case DatasetPoll(_) => DatasetKind
    case FtPoll(_) => FineTuneKind
    case GgufPoll(_) => GgufKind
    case OllamaPoll(_) => OllamaKind
  }

  /** The canonical status a successful reply carries, if any. */
  function ReplyStatus(e: PollEvent): Option<StageStatus>
  {
    match e
    case DatasetPoll(r) => if r.Ok? then Some(MapStageStatus(r.data.status)) else None
    case FtPoll(r) => if r.Ok? then Some(MapFtPollStatus(r.data.status)) else None
    case GgufPoll(r) => if r.Ok? then Some(MapStageStatus(r.data.status)) else None
    case OllamaPoll(r) => if r.Ok? then Some(MapStageStatus(r.data.status)) else None
  }

  /** The dataset popup after a reply: moved only by a successful dataset
      reply, and only while it is bound to `id`. */
  function DatasetView(v: DatasetSession, id: TaskId, e: PollEvent): DatasetSession
  {
    match e
    case DatasetPoll(Ok(d)) =>
      if v.taskId == Some(id)
      then v.(status := MapStageStatus(d.status), error := Coalesce(d.error, ""), counters := d.counters)
      else v
    case _ => v
  }

  /** The fine-tuning popup after a reply, matched on its fine-tune task id. */
  function FtView(v: FtSession, id: TaskId, e: PollEvent): FtSession
  {
    match e
    case FtPoll(Ok(f)) =>
      if v.ftTaskId == Some(id)
      then v.(status := MapFtPollStatus(f.status), progress := f.progress, lastMessage := Coalesce(f.lastMessage, ""))
      else v
    case _ => v
  }

  /** The result popup after a reply: a GGUF reply moves its GGUF fields, an
      Ollama reply its Ollama fields. */
  function ResultView(v: ResultSession, id: TaskId, e: PollEvent): ResultSession
  {
    match e
    case GgufPoll(Ok(g)) =>
      if v.taskId == Some(id)
      then v.(ggufStatus := MapStageStatus(g.status),
              ggufQuantization := Coalesce(g.quantization, ""),
              ggufPath := Coalesce(g.path, ""),
              ggufError := Coalesce(g.error, ""))
      else v
    case OllamaPoll(Ok(o)) =>
      if v.taskId == Some(id)
      then v.(ollamaStatus := MapStageStatus(o.status),
              ollamaModelName := Coalesce(o.modelName, ""),
              ollamaError := Coalesce(o.error, ""))
      else v
    case _ => v
  }

  /** What a successful reply does: registry first, then the bound popup,
      then the controller stops itself on a terminal status. */
  function Merge(a: App, id: TaskId, e: PollEvent): App
    requires ReplyStatus(e).Some?
  {
    var tasks := UpdateWhere(a.tasks, id, PatchOf(e));
    assert !HasId(a.tasks, id) ==> tasks == a.tasks by {
      if !HasId(a.tasks, id) {
        UpdateUnknownId(a.tasks, id, PatchOf(e));
      }
    }
    a.(tasks := tasks,
       dataset := DatasetView(a.dataset, id, e),
       ft := FtView(a.ft, id, e),
       result := ResultView(a.result, id, e),
       timers := if IsTerminal(ReplyStatus(e).value) then Stop(a.timers, KindOf(e)) else a.timers)
  }

  /** One fetch of the event's stage for task `id`: a missing token returns
      early and a failed call is swallowed. */
  function Fetch(a: App, id: TaskId, hasToken: bool, e: PollEvent): App
  {
    if !hasToken || ReplyStatus(e).None? then a else Merge(a, id, e)
  }

  /** One interval firing: nothing without an active timer; otherwise a
      fetch for exactly the task the timer was started for. */
  function Tick(a: App, hasToken: bool, e: PollEvent): (r: App)
    ensures a.timers.Slot(KindOf(e)).None? ==> r == a
    ensures a.timers.Slot(KindOf(e)).Some? ==> OnlyTouches(a.tasks, r.tasks, a.timers.Slot(KindOf(e)).value)
    ensures !hasToken || ReplyStatus(e).None? ==> r == a
    ensures forall k :: k != KindOf(e) ==> r.timers.Slot(k) == a.timers.Slot(k)
    ensures hasToken && ReplyStatus(e).Some? && IsTerminal(ReplyStatus(e).value) ==> r.timers.Slot(KindOf(e)) == None
    ensures ReplyStatus(e).Some? && !IsTerminal(ReplyStatus(e).value) ==> r.timers.Slot(KindOf(e)) == a.timers.Slot(KindOf(e))
    // a tick is the stage's own fetch for the id its timer was started with
    ensures e.DatasetPoll? && a.timers.Slot(DatasetKind).Some? ==>
      r == FetchDatasetStatus(a, a.timers.Slot(DatasetKind).value, hasToken, e.datasetReply)
    ensures e.FtPoll? && a.timers.Slot(FineTuneKind).Some? ==>
      r == FetchFtStatus(a, a.timers.Slot(FineTuneKind).value, hasToken, e.ftReply)
    ensures e.GgufPoll? && a.timers.Slot(GgufKind).Some? ==>
      r == FetchGgufStatus(a, a.timers.Slot(GgufKind).value, hasToken, e.ggufReply)
    ensures e.OllamaPoll? && a.timers.Slot(OllamaKind).Some? ==>
      r == FetchOllamaStatus(a, a.timers.Slot(OllamaKind).value, hasToken, e.ollamaReply)
  {
    match a.timers.Slot(KindOf(e))
    case None => a
    case Some(id) => Fetch(a, id, hasToken, e)
  }

  /** After `start(b)` the stage's next tick can only touch records of `b`:
      the task polled before is abandoned. */
  lemma StartRetargetsTicks(a: App, b: TaskId, hasToken: bool, e: PollEvent)
    ensures var s := a.(timers := Start(a.timers, KindOf(e), b));
      OnlyTouches(s.tasks, Tick(s, hasToken, e).tasks, b)
  {
  }

  /** Once a tick has seen a terminal status, further ticks of that stage do
      nothing until the stage is started again. */
  lemma NoTickAfterTerminal(a: App, hasToken: bool, e: PollEvent, next: PollEvent)
    requires hasToken && ReplyStatus(e).Some? && IsTerminal(ReplyStatus(e).value)
    requires KindOf(next) == KindOf(e)
    ensures Tick(Tick(a, hasToken, e), hasToken, next) == Tick(a, hasToken, e)
  {
  }

  /** The four controllers are independent: ticks of different stages may
      interleave in either order with the same result. */
  lemma TicksCommute(a: App, hasToken: bool, e1: PollEvent, e2: PollEvent)
    requires KindOf(e1) != KindOf(e2)
    ensures Tick(Tick(a, hasToken, e1), hasToken, e2) == Tick(Tick(a, hasToken, e2), hasToken, e1)
  {
    var k1, k2 := KindOf(e1), KindOf(e2);
    var b1, b2 := Tick(a, hasToken, e1), Tick(a, hasToken, e2);
    assert b1.timers.Slot(k2) == a.timers.Slot(k2);
    assert b2.timers.Slot(k1) == a.timers.Slot(k1);
    if a.timers.Slot(k1).None? {
      assert b1 == a && Tick(b2, hasToken, e1) == b2;
    } else if a.timers.Slot(k2).None? {
      assert b2 == a && Tick(b1, hasToken, e2) == b1;
    } else {
      var id1, id2 := a.timers.Slot(k1).value, a.timers.Slot(k2).value;
      assert b1 == Fetch(a, id1, hasToken, e1);
      assert b2 == Fetch(a, id2, hasToken, e2);
      assert Tick(b1, hasToken, e2) == Fetch(b1, id2, hasToken, e2);
      assert Tick(b2, hasToken, e1) == Fetch(b2, id1, hasToken, e1);
      FetchesCommute(a, id1, id2, hasToken, e1, e2);
    }
  }

  lemma FetchesCommute(a: App, id1: TaskId, id2: TaskId, hasToken: bool, e1: PollEvent, e2: PollEvent)
    requires KindOf(e1) != KindOf(e2)
    ensures Fetch(Fetch(a, id1, hasToken, e1), id2, hasToken, e2) == Fetch(Fetch(a, id2, hasToken, e2), id1, hasToken, e1)
  {
    if hasToken && ReplyStatus(e1).Some? && ReplyStatus(e2).Some? {
      var left := Merge(Merge(a, id1, e1), id2, e2);
      var right := Merge(Merge(a, id2, e2), id1, e1);
      UpdateWhereCommutes(a.tasks, id2, PatchOf(e2), id1, PatchOf(e1));
      assert left.tasks == right.tasks;
      ViewsCommute(a, id1, id2, e1, e2);
      StopsCommute(a.timers, e1, e2);
    }
  }

  lemma ViewsCommute(a: App, id1: TaskId, id2: TaskId, e1: PollEvent, e2: PollEvent)
    requires KindOf(e1) != KindOf(e2)
    ensures DatasetView(DatasetView(a.dataset, id1, e1), id2, e2) == DatasetView(DatasetView(a.dataset, id2, e2), id1, e1)
    ensures FtView(FtView(a.ft, id1, e1), id2, e2) == FtView(FtView(a.ft, id2, e2), id1, e1)
    ensures ResultView(ResultView(a.result, id1, e1), id2, e2) == ResultView(ResultView(a.result, id2, e2), id1, e1)
  {
  }

  lemma StopsCommute(t: Timers, e1: PollEvent, e2: PollEvent)
    requires KindOf(e1) != KindOf(e2) && ReplyStatus(e1).Some? && ReplyStatus(e2).Some?
    ensures
      var s1 := if IsTerminal(ReplyStatus(e1).value) then Stop(t, KindOf(e1)) else t;
      var s2 := if IsTerminal(ReplyStatus(e2).value) then Stop(t, KindOf(e2)) else t;
      (if IsTerminal(ReplyStatus(e2).value) then Stop(s1, KindOf(e2)) else s1)
        == (if IsTerminal(ReplyStatus(e1).value) then Stop(s2, KindOf(e1)) else s2)
  {
  }

  /** The registry merge a successful reply performs. */
  function PatchOf(e: PollEvent): (p: Patch)
    requires ReplyStatus(e).Some?
    ensures StageOf(p) == KindOf(e)
  {
    match e
    case DatasetPoll(r) => DatasetPolled(r.data)
    case FtPoll(r) => FtPolled(r.data)
    case GgufPoll(r) => GgufPolled(r.data)
    case OllamaPoll(r) => OllamaPolled(r.data)
  }
}

=== FILE: registry.dfy ===
/** The task registry: the ordered list of task records mirrored from the
    backend, rebuilt wholesale by a list refresh and otherwise changed only by
    id-keyed patches. */
module Registry {
  import opened Values
  import opened Status
  import opened Backend

  /** `FtTask`: one task as the dashboard holds it. */
  datatype Task = Task(
    id: TaskId,
    name: string,
    createdAt: string,
    files: seq<FileInfo>,
    datasetStatus: StageStatus,
    datasetCounters: DatasetCounters,
    datasetError: Option<string>,
    datasetPath: Option<string>,
    ftStatus: StageStatus,
    ftProgress: FtProgress,
    ftLastMessage: Option<string>,
    ftError: Option<string>,
    benchmarkStatus: StageStatus,
    hfRepoId: Option<string>,
    ggufStatus: StageStatus,
    ggufQuantization: Option<string>,
    ggufPath: Option<string>,
    ollamaStatus: StageStatus,
    ollamaModelName: Option<string>)

  /** `notes || hub_model_id || base_model || task_id`. */
  function TaskName(s: TaskSnapshot): string
  {
    OrElse(s.notes, OrElse(s.hubModelId, OrElse(s.baseModel, s.taskId)))
  }

  /** Turns one list element into a record; `now` stands for the clock read
      when neither timestamp is present. */
  function FromSnapshot(s: TaskSnapshot, now: string): (t: Task)
    ensures t.id == s.taskId
    ensures t.benchmarkStatus == Idle
    ensures t.ftStatus == MapListFtStatus(s.status)
    ensures t.ftStatus == Idle <==> s.status == Some("DRAFT")
    ensures t.datasetStatus == MapStageStatus(s.datasetStatus)
    ensures t.ggufStatus == MapStageStatus(s.ggufStatus)
    ensures t.ollamaStatus == MapStageStatus(s.ollamaStatus)
    ensures t.datasetCounters == s.datasetCounters && t.datasetPath == s.datasetPath
    ensures t.datasetError == s.datasetError
    ensures t.createdAt == (if s.createdAt.Some? then s.createdAt.value else if s.updatedAt.Some? then s.updatedAt.value else now)
    ensures t.files == (if s.files.Some? then s.files.value else [])
    ensures t.ftProgress == s.progress && t.ftLastMessage == s.lastMessage && t.ftError == s.error
    ensures t.hfRepoId == s.hfRepoId && t.ggufPath == s.ggufPath
    ensures t.ggufQuantization == s.ggufQuantization && t.ollamaModelName == s.ollamaModelName
    ensures Truthy(s.notes) ==> t.name == s.notes.value
    ensures !Truthy(s.notes) && Truthy(s.hubModelId) ==> t.name == s.hubModelId.value
    ensures !Truthy(s.notes) && !Truthy(s.hubModelId) && Truthy(s.baseModel) ==> t.name == s.baseModel.value
    ensures !Truthy(s.notes) && !Truthy(s.hubModelId) && !Truthy(s.baseModel) ==> t.name == s.taskId
    ensures t.name != "" || s.taskId == ""
  {
    Task(
      id := s.taskId,
      name := TaskName(s),
      createdAt := Coalesce(s.createdAt, Coalesce(s.updatedAt, now)),
      files := Coalesce(s.files, []),
      datasetStatus := MapStageStatus(s.datasetStatus),
      datasetCounters := s.datasetCounters,
      datasetError := s.datasetError,
      datasetPath := s.datasetPath,
      ftStatus := MapListFtStatus(s.status),
      ftProgress := s.progress,
      ftLastMessage := s.lastMessage,
      ftError := s.error,
      benchmarkStatus := Idle,
      hfRepoId := s.hfRepoId,
      ggufStatus := MapStageStatus(s.ggufStatus),
      ggufQuantization := s.ggufQuantization,
      ggufPath := s.ggufPath,
      ollamaStatus := MapStageStatus(s.ollamaStatus),
      ollamaModelName := s.ollamaModelName)
  }

  /** The element-wise conversion of a list reply, order kept. */
  function FromSnapshots(snaps: seq<TaskSnapshot>, now: string): (r: seq<Task>)
    ensures |r| == |snaps|
    ensures forall i :: 0 <= i < |snaps| ==> r[i] == FromSnapshot(snaps[i], now)
    decreases |snaps|
  {
    if snaps == [] then [] else [FromSnapshot(snaps[0], now)] + FromSnapshots(snaps[1..], now)
  }

  /** `fetchTasksFromBackend`: without a token nothing happens; otherwise the
      whole collection is replaced by the reply (a `null` body counts as an
      empty list), and a failed call leaves it empty. */
  function Refresh(prev: seq<Task>, hasToken: bool, reply: Reply<Option<seq<TaskSnapshot>>>, now: string): (r: seq<Task>)
    ensures !hasToken ==> r == prev
    ensures hasToken && reply.Err? ==> r == []
    ensures hasToken && reply.Ok? ==>
      var snaps := Coalesce(reply.data, []);
      |r| == |snaps| && forall i :: 0 <= i < |snaps| ==> r[i] == FromSnapshot(snaps[i], now)
  {
    if !hasToken then prev
    else match reply
      case Err => []
      case Ok(data) => FromSnapshots(Coalesce(data, []), now)
  }

  /** A refresh is a full replace: what was there before does not matter. */
  lemma RefreshForgetsPrevious(a: seq<Task>, b: seq<Task>, reply: Reply<Option<seq<TaskSnapshot>>>, now: string)
    ensures Refresh(a, true, reply, now) == Refresh(b, true, reply, now)
  {
  }

  predicate HasId(tasks: seq<Task>, id: TaskId)
  {
    exists i :: 0 <= i < |tasks| && tasks[i].id == id
  }

  /** Position of the first record with the id, or -1. */
  function IndexOf(tasks: seq<Task>, id: TaskId): (k: int)
    ensures -1 <= k < |tasks|
    ensures k == -1 <==> !HasId(tasks, id)
    ensures k >= 0 ==> tasks[k].id == id && forall j :: 0 <= j < k ==> tasks[j].id != id
    decreases |tasks|
  {
    if tasks == [] then -1
    else if tasks[0].id == id then 0
    else
      var k := IndexOf(tasks[1..], id);
      if k == -1 then -1 else k + 1
  }

  /** `tasks.find((t) => t.id === id)`: the first record with that id. */
  function Find(tasks: seq<Task>, id: TaskId): (r: Option<Task>)
    ensures r.None? <==> !HasId(tasks, id)
    ensures r.Some? ==> r.value.id == id && r.value == tasks[IndexOf(tasks, id)]
    ensures r.Some? ==> forall j :: 0 <= j < |tasks| && tasks[j].id == id ==> IndexOf(tasks, id) <= j
  {
    var k := IndexOf(tasks, id);
    if k == -1 then None else Some(tasks[k])
  }

  /** The field merges the dashboard applies to one record. */
  datatype Patch =
    | DatasetPolled(dataset: DatasetPayload)
    | DatasetStarted(dataset: DatasetPayload)
    | FtPolled(ft: FtPayload)
    | GgufPolled(gguf: GgufPayload)
    | GgufStarted(gguf: GgufPayload, quantization: string)
    | OllamaPolled(ollama: OllamaPayload)
    | OllamaStarted(ollama: OllamaPayload, modelName: string)

  /** The stage whose fields a patch writes. */
  function StageOf(p: Patch): StageKind
  {
    match p
    case DatasetPolled(_) => DatasetKind
    case DatasetStarted(_) => DatasetKind
    case FtPolled(_) => FineTuneKind
    case GgufPolled(_) => GgufKind
    case GgufStarted(_, _) => GgufKind
    case OllamaPolled(_) => OllamaKind
    case OllamaStarted(_, _) => OllamaKind
  }

  /** The record with the fields of stage `k` reset: two records agree
      outside `k` exactly when their blanked forms are equal. */
  function Blank(k: StageKind, t: Task): Task
  {
    match k
    case DatasetKind =>
      t.(datasetStatus := Idle, datasetCounters := NoCounters, datasetError := None, datasetPath := None)
    case FineTuneKind =>
      t.(ftStatus := Idle, ftProgress := NoFtProgress, ftLastMessage := None, ftError := None)
    case GgufKind =>
      t.(ggufStatus := Idle, ggufQuantization := None, ggufPath := None)
    case OllamaKind =>
      t.(ollamaStatus := Idle, ollamaModelName := None)
  }

  predicate AgreeOutside(k: StageKind, a: Task, b: Task)
  {
    Blank(k, a) == Blank(k, b)
  }

  /** One merge, as written at each `setTasks(prev.map(...))` site. */
  function Apply(p: Patch, t: Task): (r: Task)
    ensures r.id == t.id
    ensures AgreeOutside(StageOf(p), t, r)
    // a poll keeps the recorded dataset path when the reply carries none
    ensures p.DatasetPolled? ==>
      && r.datasetStatus == MapStageStatus(p.dataset.status)
      && r.datasetCounters == p.dataset.counters
      && r.datasetError == p.dataset.error
      && r.datasetPath == (if p.dataset.path.Some? then p.dataset.path else t.datasetPath)
    // the start reply never touches the path
    ensures p.DatasetStarted? ==>
      && r.datasetStatus == MapStageStatus(p.dataset.status)
      && r.datasetCounters == p.dataset.counters
      && r.datasetError == p.dataset.error
      && r.datasetPath == t.datasetPath
    // the poll never writes the recorded fine-tune error
    ensures p.FtPolled? ==>
      && r.ftStatus == MapStageStatus(p.ft.status)
      && r.ftProgress == p.ft.progress
      && r.ftLastMessage == p.ft.lastMessage
      && r.ftError == t.ftError
    // a poll overwrites quantization and path, with null when the reply has none
    ensures p.GgufPolled? ==>
      && r.ggufStatus == MapStageStatus(p.gguf.status)
      && r.ggufQuantization == p.gguf.quantization
      && r.ggufPath == p.gguf.path
    // a start always records a quantization: the reply's, else the one sent
    ensures p.GgufStarted? ==>
      && r.ggufStatus == MapStageStatus(p.gguf.status)
      && r.ggufQuantization == Some(if p.gguf.quantization.Some? then p.gguf.quantization.value else p.quantization)
      && r.ggufPath == p.gguf.path
    ensures p.OllamaPolled? ==> r.ollamaStatus == MapStageStatus(p.ollama.status) && r.ollamaModelName == p.ollama.modelName
    // a start always records a model name: the reply's, else the one sent
    ensures p.OllamaStarted? ==>
      && r.ollamaStatus == MapStageStatus(p.ollama.status)
      && r.ollamaModelName == Some(if p.ollama.modelName.Some? then p.ollama.modelName.value else p.modelName)
  {
    match p
    case DatasetPolled(d) =>
      t.(datasetStatus := MapStageStatus(d.status),
         datasetCounters := d.counters,
         datasetError := d.error,
         datasetPath := if d.path.Some? then d.path else t.datasetPath)
    case DatasetStarted(d) =>
      t.(datasetStatus := MapStageStatus(d.status),
         datasetCounters := d.counters,
         datasetError := d.error)
    case FtPolled(f) =>
      t.(ftStatus := MapFtPollStatus(f.status),
         ftProgress := f.progress,
         ftLastMessage := f.lastMessage)
    case GgufPolled(g) =>
      t.(ggufStatus := MapStageStatus(g.status),
         ggufQuantization := g.quantization,
         ggufPath := g.path)
    case GgufStarted(g, quantization) =>
      t.(ggufStatus := MapStageStatus(g.status),
         ggufQuantization := Some(Coalesce(g.quantization, quantization)),
         ggufPath := g.path)
    case OllamaPolled(o) =>
      t.(ollamaStatus := MapStageStatus(o.status),
         ollamaModelName := o.modelName)
    case OllamaStarted(o, modelName) =>
      t.(ollamaStatus := MapStageStatus(o.status),
         ollamaModelName := Some(Coalesce(o.modelName, modelName)))
  }

  /** Merges into different stages do not interfere. */
  lemma ApplyCommutes(p: Patch, q: Patch, t: Task)
    requires StageOf(p) != StageOf(q)
    ensures Apply(p, Apply(q, t)) == Apply(q, Apply(p, t))
  {
  }

  /** `prev.map((t) => t.id === id ? {...t, ...patch} : t)`: every record
      with the id is patched, every other record is kept, and length, order
      and ids do not change. */
  function UpdateWhere(tasks: seq<Task>, id: TaskId, p: Patch): (r: seq<Task>)
    ensures |r| == |tasks|
    ensures forall i :: 0 <= i < |tasks| ==> r[i].id == tasks[i].id
    ensures forall i :: 0 <= i < |tasks| && tasks[i].id != id ==> r[i] == tasks[i]
    ensures forall i :: 0 <= i < |tasks| && tasks[i].id == id ==> r[i] == Apply(p, tasks[i])
    decreases |tasks|
  {
    if tasks == [] then []
    else [if tasks[0].id == id then Apply(p, tasks[0]) else tasks[0]] + UpdateWhere(tasks[1..], id, p)
  }

  /** A merge for an id nobody has is discarded. */
  lemma UpdateUnknownId(tasks: seq<Task>, id: TaskId, p: Patch)
    requires !HasId(tasks, id)
    ensures UpdateWhere(tasks, id, p) == tasks
  {
    var r := UpdateWhere(tasks, id, p);
    assert forall i :: 0 <= i < |tasks| ==> r[i] == tasks[i];
  }

  /** Lookup sees only ids, so records with the same ids in the same order
      are found at the same place. */
  lemma {:induction false} IndexOfSameIds(a: seq<Task>, b: seq<Task>, id: TaskId)
    requires |a| == |b| && forall i :: 0 <= i < |a| ==> a[i].id == b[i].id
    ensures IndexOf(a, id) == IndexOf(b, id)
    decreases |a|
  {
    if a != [] && a[0].id != id {
      IndexOfSameIds(a[1..], b[1..], id);
    }
  }

  /** After a merge, looking the id up yields the merged record. */
  lemma FindAfterUpdate(tasks: seq<Task>, id: TaskId, p: Patch)
    requires HasId(tasks, id)
    ensures Find(UpdateWhere(tasks, id, p), id) == Some(Apply(p, Find(tasks, id).value))
  {
    IndexOfSameIds(UpdateWhere(tasks, id, p), tasks, id);
  }

  /** Merges into different stages commute, whatever ids they target. */
  lemma UpdateWhereCommutes(tasks: seq<Task>, a: TaskId, p: Patch, b: TaskId, q: Patch)
    requires StageOf(p) != StageOf(q)
    ensures UpdateWhere(UpdateWhere(tasks, b, q), a, p) == UpdateWhere(UpdateWhere(tasks, a, p), b, q)
  {
    var mid1 := UpdateWhere(tasks, b, q);
    var mid2 := UpdateWhere(tasks, a, p);
    var left := UpdateWhere(mid1, a, p);
    var right := UpdateWhere(mid2, b, q);
    forall i | 0 <= i < |tasks|
      ensures left[i] == right[i]
    {
      var t := tasks[i];
      assert mid1[i] == (if t.id == b then Apply(q, t) else t);
      assert mid2[i] == (if t.id == a then Apply(p, t) else t);
      if t.id == a && t.id == b {
        ApplyCommutes(p, q, t);
      }
    }
    assert |left| == |right|;
  }
}

=== FILE: scenarios.dfy ===
/** Concrete runs of the pipeline: the dataset stage from start to
    success, a rejected quantize request, and a failed quantize job that is
    retried. */
module Scenarios {
  import opened Values
  import opened Status
  import opened Backend
  import opened Registry
  import opened Timers
  import opened Sessions
  import opened AppState
  import opened Polling
  import opened Handlers

  /** A freshly created draft task with nothing requested yet. */
  function DraftTask(id: TaskId): Task
  {
    Task(id, id, "", [], Idle, NoCounters, None, None, Idle, NoFtProgress, None, None,
      Idle, None, Idle, None, None, Idle, None)
  }

  /** Draft `t1` → dataset start → a poll at 3 of 10 chunks shows 30% → a
      poll reporting success ends polling and records the dataset path. */
  lemma DatasetRunToSuccess()
    ensures
      var a0 := InitialApp.(tasks := [DraftTask("t1")]);
      var s1 := HandleGenerateDataset(a0, true, "t1", Ok(DatasetPayload(Some("PENDING"), NoCounters, None, None)));
      var a2 := Tick(s1.app, true, DatasetPoll(Ok(DatasetPayload(
        Some("RUNNING"), DatasetCounters(Some(1), Some(0), Some(10), Some(3), None), None, None))));
      var a3 := Tick(a2, true, DatasetPoll(Ok(DatasetPayload(
        Some("SUCCEEDED"), DatasetCounters(Some(1), Some(1), Some(10), Some(10), Some(42)), None, Some("ds/t1.jsonl")))));
      && |s1.posts| == 1 && s1.posts[0].chunkLength == 180 && s1.posts[0].maxAttempts == 2
      && s1.app.timers.Slot(DatasetKind) == Some("t1")
      && ChunkProgressPercent(a2.dataset) == Some(30)
      && a2.timers.Slot(DatasetKind) == Some("t1")
      && a3.dataset.status == Succeeded
      && a3.timers.Slot(DatasetKind) == None
      && a3.tasks[0].datasetPath == Some("ds/t1.jsonl")
      && a3.tasks[0].datasetCounters.totalRows == Some(42)
  {
    var a0 := InitialApp.(tasks := [DraftTask("t1")]);
    DatasetStartStep();
    var s1 := HandleGenerateDataset(a0, true, "t1", Ok(DatasetPayload(Some("PENDING"), NoCounters, None, None)));
    var d2 := DatasetPayload(Some("RUNNING"), DatasetCounters(Some(1), Some(0), Some(10), Some(3), None), None, None);
    BoundDatasetTick(s1.app, "t1", d2);
    var a2 := Tick(s1.app, true, DatasetPoll(Ok(d2)));
    var d3 := DatasetPayload(Some("SUCCEEDED"), DatasetCounters(Some(1), Some(1), Some(10), Some(10), Some(42)), None, Some("ds/t1.jsonl"));
    assert a2.dataset.counters == d2.counters;
    assert ChunkProgressPercent(a2.dataset) == Some(30);
    BoundDatasetTick(a2, "t1", d3);
    var a3 := Tick(a2, true, DatasetPoll(Ok(d3)));
    assert a3.dataset.status == Succeeded;
    assert a3.timers.Slot(DatasetKind) == None;
  }

  /** The start step of the run above: one POST, polling bound to `t1`. */
  lemma DatasetStartStep()
    ensures
      var a0 := InitialApp.(tasks := [DraftTask("t1")]);
      var s1 := HandleGenerateDataset(a0, true, "t1", Ok(DatasetPayload(Some("PENDING"), NoCounters, None, None)));
      && |s1.posts| == 1 && s1.posts[0].chunkLength == 180 && s1.posts[0].maxAttempts == 2
      && s1.app.timers.Slot(DatasetKind) == Some("t1")
      && s1.app.dataset.taskId == Some("t1")
      && |s1.app.tasks| == 1 && s1.app.tasks[0].id == "t1"
  {
    var a0 := InitialApp.(tasks := [DraftTask("t1")]);
    assert Find(a0.tasks, "t1") == Some(DraftTask("t1"));
    assert !DatasetAlreadyRequested(a0.tasks, "t1");
  }

  /** A successful dataset tick while the timer and the popup are bound to
      `id`, for the one-record registries of these runs. */
  lemma BoundDatasetTick(a: App, id: TaskId, d: DatasetPayload)
    requires a.timers.Slot(DatasetKind) == Some(id) && a.dataset.taskId == Some(id)
    requires |a.tasks| == 1 && a.tasks[0].id == id
    ensures var r := Tick(a, true, DatasetPoll(Ok(d)));
      && r.dataset.taskId == Some(id)
      && r.dataset.status == MapStageStatus(d.status)
      && r.dataset.counters == d.counters
      && r.timers.Slot(DatasetKind) == (if IsTerminal(MapStageStatus(d.status)) then None else Some(id))
      && |r.tasks| == 1 && r.tasks[0].id == id
      && r.tasks[0].datasetCounters == d.counters
      && r.tasks[0].datasetPath == (if d.path.None? then a.tasks[0].datasetPath else d.path)
  {
  }

  /** The result popup of `t1`, whose fine-tune stage is in state `ft`. */
  function ResultOpenFor(ft: StageStatus, gguf: StageStatus): App
  {
    var t := DraftTask("t1").(ftStatus := ft, ggufStatus := gguf);
    InitialApp.(tasks := [t], result := InitialResultSession.(isOpen := true, taskId := Some("t1"), ggufStatus := gguf))
  }

  /** Asking for GGUF while the fine-tune is still pending is refused: no
      POST, and neither the popup nor anything else changes. */
  lemma GgufRejectedWhileFineTunePending(reply: Reply<GgufPayload>)
    ensures var a := ResultOpenFor(Pending, Idle);
      var s := HandleStartGguf(a, true, reply);
      s.posts == [] && s.app == a && s.outcome == Rejected(FineTuneNotSucceeded)
  {
    var a := ResultOpenFor(Pending, Idle);
    assert Find(a.tasks, "t1").value.ftStatus == Pending;
  }

  /** A quantize poll reporting FAILED with `oom` shows the failure and stops
      polling; retrying posts again and a fresh timer starts. */
  lemma GgufFailureThenRetry()
    ensures
      var a := ResultOpenFor(Succeeded, Running).(timers := Start(NoTimers, GgufKind, "t1"));
      var failed := Tick(a, true, GgufPoll(Ok(GgufPayload(Some("FAILED"), Some("q4_k_m"), None, Some("oom")))));
      var retry := HandleStartGguf(failed, true, Ok(GgufPayload(Some("PENDING"), Some("q4_k_m"), None, None)));
      && failed.result.ggufStatus == Failed
      && failed.result.ggufError == "oom"
      && failed.timers.Slot(GgufKind) == None
      && |retry.posts| == 1
      && retry.app.result.ggufStatus == Pending
      && retry.app.timers.Slot(GgufKind) == Some("t1")
  {
    var a := ResultOpenFor(Succeeded, Running).(timers := Start(NoTimers, GgufKind, "t1"));
    var failed := Tick(a, true, GgufPoll(Ok(GgufPayload(Some("FAILED"), Some("q4_k_m"), None, Some("oom")))));
    assert failed.tasks[0].ftStatus == Succeeded;
    assert Find(failed.tasks, "t1").value.ftStatus == Succeeded;
  }

  /** Reopening the dataset popup of a task whose dataset already succeeded
      posts nothing and starts no timer. */
  lemma SucceededDatasetIsNotRestarted(reply: Reply<DatasetPayload>)
    ensures var t := DraftTask("t1").(datasetStatus := Succeeded, datasetPath := Some("ds/t1.jsonl"));
      var s := HandleGenerateDataset(InitialApp.(tasks := [t]), true, "t1", reply);
      s.posts == [] && s.app.timers == NoTimers && s.app.dataset.status == Succeeded
  {
    var t := DraftTask("t1").(datasetStatus := Succeeded, datasetPath := Some("ds/t1.jsonl"));
    assert Find([t], "t1") == Some(t);
  }

  /** A poll does not guard against going backwards: a running dataset whose
      poll reports NOT_REQUESTED is shown as idle again, and the timer keeps
      running because idle is not terminal. */
  lemma PollCanReturnToIdle()
    ensures
      var t := DraftTask("t1").(datasetStatus := Running);
      var a := InitialApp.(tasks := [t], timers := Start(NoTimers, DatasetKind, "t1"),
                           dataset := InitialDatasetSession.(isOpen := true, taskId := Some("t1"), status := Running));
      var r := Tick(a, true, DatasetPoll(Ok(DatasetPayload(Some("NOT_REQUESTED"), NoCounters, None, None))));
      && r.tasks[0].datasetStatus == Idle
      && r.dataset.status == Idle
      && r.timers.Slot(DatasetKind) == Some("t1")
  {
  }
}

=== FILE: sessions.dfy ===
/** The three popup records (`datasetPopup`, `ftPopup`, `resultPopup`): each is
    a view of one task's stage, bound to that task's id, and the rounded
    percentages the dataset popup derives from its counters. */
module Sessions {
  import opened Values
  import opened Status
  import opened Backend

  /** The dataset-generation popup. */
  datatype DatasetSession = DatasetSession(
    isOpen: bool,
    taskId: Option<TaskId>,
    status: StageStatus,
    error: string,
    counters: DatasetCounters)

  const InitialDatasetSession := DatasetSession(false, None, Idle, "", NoCounters)

  /** The fine-tuning popup: the dataset task it trains from, the fine-tune
      task the backend created, the form inputs and the polled progress.
      Learning rate is a floating-point input and is not kept. */
  datatype FtSession = FtSession(
    isOpen: bool,
    sourceTaskId: Option<TaskId>,
    ftTaskId: Option<TaskId>,
    status: StageStatus,
    error: string,
    baseModel: string,
    hubModelId: string,
    numTrainEpochs: int,
    perDeviceTrainBatchSize: int,
    maxLength: int,
    hfToken: string,
    lastMessage: string,
    progress: FtProgress)

  const InitialFtSession := FtSession(
    false, None, None, Idle, "", "google/gemma-2-9b-it", "", 1, 4, 2048, "", "", NoFtProgress)

  /** The result popup, shared by the quantize (GGUF) and deploy (Ollama)
      stages. Temperature is a floating-point input and is not kept. */
  datatype ResultSession = ResultSession(
    isOpen: bool,
    taskId: Option<TaskId>,
    hfRepoId: string,
    ggufStatus: StageStatus,
    ggufQuantization: string,
    ggufPath: string,
    ggufError: string,
    ollamaStatus: StageStatus,
    ollamaModelName: string,
    ollamaError: string,
    quantizationMethod: string,
    ollamaModelNameInput: string,
    ollamaSystemPrompt: string,
    ollamaPushToRegistry: bool,
    ollamaRegistryModelName: string,
    ollamaApiKey: string)

  const InitialResultSession := ResultSession(
    false, None, "", Idle, "", "", "", Idle, "", "", "f16", "", "", false, "", "")

  /** The percent shown for `processed` of `total`: present when `total` is a
      positive number and `processed` is present, `null` otherwise. It is the
      nearest integer to the exact ratio processed·100/total, halves rounding
      up. The dashboard divides and multiplies in floating point before
      rounding, so where the double lands just below a half (23 of 40) it
      shows one less. */
  function RoundedPercent(processed: Option<int>, total: Option<int>): (r: Option<int>)
    ensures r.Some? <==> processed.Some? && total.Some? && total.value > 0
    ensures r.Some? ==>
      2 * total.value * r.value <= 200 * processed.value + total.value < 2 * total.value * r.value + 2 * total.value
  {
    if total.Some? && total.value != 0 && processed.Some? && total.value > 0 then
      var p, t := processed.value, total.value;
      var q := (200 * p + t) / (2 * t);
      assert 2 * t * q <= 200 * p + t < 2 * t * q + 2 * t by {
        DivBounds(200 * p + t, 2 * t);
      }
      Some(q)
    else None
  }

  lemma DivBounds(n: int, d: int)
    requires d > 0
    ensures d * (n / d) <= n < d * (n / d) + d
  {
  }

  /** The percent of a count that has not overrun its total lies in 0..100. */
  lemma RoundedPercentInRange(processed: int, total: int)
    requires 0 <= processed <= total && total > 0
    ensures var r := RoundedPercent(Some(processed), Some(total));
      r.Some? && 0 <= r.value <= 100
  {
    var q := RoundedPercent(Some(processed), Some(total)).value;
    var t := total;
    assert 200 * processed + t < 2 * t * (q + 1);
    assert 2 * t * q <= 200 * processed + t <= 201 * t;
    if q < 0 {
      MulMonotone(t, q + 1, 0);
    }
    if q > 100 {
      MulMonotone(t, 101, q);
    }
  }

  lemma MulMonotone(t: int, a: int, b: int)
    requires t > 0 && a <= b
    ensures t * a <= t * b
  {
  }

  /** The chunk progress shown in the dataset popup. */
  function ChunkProgressPercent(s: DatasetSession): Option<int>
  {
    RoundedPercent(s.counters.processedChunks, s.counters.totalChunks)
  }

  /** The file progress shown in the dataset popup. */
  function FileProgressPercent(s: DatasetSession): Option<int>
  {
    RoundedPercent(s.counters.processedFiles, s.counters.totalFiles)
  }
}

=== FILE: status.dfy ===
/** The canonical stage status and the three ways the dashboard turns a raw
    backend status string into one. */
module Status {
  import opened Values

  /** The five-valued `StageStatus` every stage field holds. */
  datatype StageStatus = Idle | Pending | Running | Succeeded | Failed

  /** The four pipeline stages; each owns one polling timer. */
  datatype StageKind = DatasetKind | FineTuneKind | GgufKind | OllamaKind

  /** A job that has finished, one way or the other: polling stops here. */
  predicate IsTerminal(s: StageStatus)
  {
    s == Succeeded || s == Failed
  }

  /** A job the backend is still working on: polling is worth (re)starting. */
  predicate InFlight(s: StageStatus)
  {
    s == Pending || s == Running
  }

  /** The backend spelling of each canonical status. */
  function WireName(s: StageStatus): string
  {
    match s
    case Idle => "NOT_REQUESTED"
    case Pending => "PENDING"
    case Running => "RUNNING"
    case Succeeded => "SUCCEEDED"
    case Failed => "FAILED"
  }

  /** `mapStageStatus` (and its alias `mapDatasetStatus`): a total map in which
      the four job states keep their meaning and everything else, including a
      missing value, is `Idle`. */
  function MapStageStatus(raw: Option<string>): (r: StageStatus)
    ensures r == Pending <==> raw == Some("PENDING")
    ensures r == Running <==> raw == Some("RUNNING")
    ensures r == Succeeded <==> raw == Some("SUCCEEDED")
    ensures r == Failed <==> raw == Some("FAILED")
    ensures r == Idle <==> raw !in {Some("PENDING"), Some("RUNNING"), Some("SUCCEEDED"), Some("FAILED")}
  {
    match raw
    case None => Idle
    case Some(s) =>
      if s == "PENDING" then Pending
      else if s == "RUNNING" then Running
      else if s == "SUCCEEDED" then Succeeded
      else if s == "FAILED" then Failed
      else Idle
  }

  /** Every canonical status survives a trip through its backend spelling. */
  lemma WireNameRoundTrip(s: StageStatus)
    ensures MapStageStatus(Some(WireName(s))) == s
  {
  }

  /** The fine-tune poll writes its own chain of comparisons; it agrees with
      `MapStageStatus` on every input, unknown values included. */
  function MapFtPollStatus(raw: Option<string>): (r: StageStatus)
    ensures r == MapStageStatus(raw)
  {
    if raw == Some("SUCCEEDED") then Succeeded
    else if raw == Some("FAILED") then Failed
    else if raw == Some("PENDING") then Pending
    else if raw == Some("RUNNING") then Running
    else Idle
  }

  /** The task-list mapping of the overall job status to `ftStatus`: a draft
      is `Idle`, and every status it does not recognise counts as `Running`. */
  function MapListFtStatus(raw: Option<string>): (r: StageStatus)
    ensures r == Idle <==> raw == Some("DRAFT")
    ensures raw != Some("DRAFT") && MapStageStatus(raw) != Idle ==> r == MapStageStatus(raw)
    ensures raw != Some("DRAFT") && MapStageStatus(raw) == Idle ==> r == Running
  {
    if raw == Some("DRAFT") then Idle
    else if raw == Some("SUCCEEDED") then Succeeded
    else if raw == Some("FAILED") then Failed
    else if raw == Some("PENDING") then Pending
    else Running
  }

  /** The two fine-tune mappings disagree exactly on the non-draft values
      the poll sends to `Idle` and the task list calls `Running`: such a
      record flips between the two as refreshes and polls alternate. */
  lemma ListAndPollMappingsDiffer(raw: Option<string>)
    ensures MapListFtStatus(raw) != MapFtPollStatus(raw)
        <==> raw != Some("DRAFT") && MapFtPollStatus(raw) == Idle
    ensures MapListFtStatus(raw) != MapFtPollStatus(raw) ==> MapListFtStatus(raw) == Running
  {
  }
}

=== FILE: text.dfy ===
/** String helpers the dashboard relies on: `trim`, ASCII `toLowerCase`, the
    model-name slug built with two regular-expression replacements, decimal
    rendering of a count, and `Array.prototype.join`. Whitespace and case are
    restricted to ASCII. */
module Text {

  /** ASCII whitespace: the part of JavaScript's `\s` class the model keeps. */
  predicate IsSpace(c: char)
  {
    c == ' ' || c == '\t' || c == '\n' || c == '\r' || c == '\U{000B}' || c == '\U{000C}'
  }

  predicate AllSpace(s: string)
  {
    forall i :: 0 <= i < |s| ==> IsSpace(s[i])
  }

  predicate NoSpace(s: string)
  {
    forall i :: 0 <= i < |s| ==> !IsSpace(s[i])
  }

  /** Drops the leading run of whitespace. */
  function TrimStart(s: string): (r: string)
    ensures |r| <= |s| && r == s[|s| - |r|..]
    ensures AllSpace(s[..|s| - |r|])
    ensures r == [] || !IsSpace(r[0])
    decreases |s|
  {
    if |s| > 0 && IsSpace(s[0]) then
      var r := TrimStart(s[1..]);
      assert s[..|s| - |r|] == [s[0]] + s[1..][..|s| - 1 - |r|];
      r
    else s
  }

  /** Drops the trailing run of whitespace. */
  function TrimEnd(s: string): (r: string)
    ensures |r| <= |s| && r == s[..|r|]
    ensures AllSpace(s[|r|..])
    ensures r == [] || !IsSpace(r[|r| - 1])
    decreases |s|
  {
    if |s| > 0 && IsSpace(s[|s| - 1]) then
      var r := TrimEnd(s[..|s| - 1]);
      assert s[|r|..] == s[..|s| - 1][|r|..] + [s[|s| - 1]];
      r
    else s
  }

  /** `String.prototype.trim`: both whitespace runs removed, nothing else. */
  function Trim(s: string): (r: string)
    ensures |r| <= |s|
    ensures exists i, j :: 0 <= i <= j <= |s| && r == s[i..j] && AllSpace(s[..i]) && AllSpace(s[j..])
    ensures r == [] || (!IsSpace(r[0]) && !IsSpace(r[|r| - 1]))
    ensures r == [] <==> AllSpace(s)
  {
    var front := TrimStart(s);
    var r := TrimEnd(front);
    TrimCutsEnds(s, |s| - |front|, front, r);
    r
  }

  /** Cutting a whitespace run off the front and then one off the back
      leaves a middle piece of the original. */
  lemma TrimCutsEnds(s: string, i: nat, front: string, r: string)
    requires i + |front| == |s| && front == s[i..] && AllSpace(s[..i])
    requires front == [] || !IsSpace(front[0])
    requires |r| <= |front| && r == front[..|r|] && AllSpace(front[|r|..])
    requires r == [] || !IsSpace(r[|r| - 1])
    ensures r == s[i..i + |r|] && AllSpace(s[i + |r|..])
    ensures r == [] || (!IsSpace(r[0]) && !IsSpace(r[|r| - 1]))
    ensures r == [] <==> AllSpace(s)
  {
    assert s[i + |r|..] == front[|r|..];
    if r == [] {
      assert front[|r|..] == front;
      assert |front| == 0;
      assert s[..i] == s;
    } else {
      assert s[i] == r[0];
    }
  }

  /** Trimming twice is trimming once. */
  lemma TrimIdempotent(s: string)
    ensures Trim(Trim(s)) == Trim(s)
  {
    var t := Trim(s);
    if t != [] {
      assert TrimStart(t) == t;
      assert TrimEnd(t) == t;
    }
  }

  /** A user input counts as blank when nothing but whitespace is left
      after trimming (`!s.trim()`). */
  predicate IsBlank(s: string)
  {
    Trim(s) == []
  }

  predicate IsUpper(c: char)
  {
    'A' <= c <= 'Z'
  }

  function LowerChar(c: char): char
  {
    if IsUpper(c) then (c as int + 32) as char else c
  }

  /** `toLowerCase` on the ASCII letters; every other character is kept. */
  function Lower(s: string): (r: string)
    ensures |r| == |s|
    ensures forall i :: 0 <= i < |s| && IsUpper(s[i]) ==> r[i] as int == s[i] as int + 32
    ensures forall i :: 0 <= i < |s| && !IsUpper(s[i]) ==> r[i] == s[i]
    ensures forall i :: 0 <= i < |r| ==> !IsUpper(r[i])
    ensures forall i :: 0 <= i < |r| ==> (IsSpace(r[i]) <==> IsSpace(s[i]))
    ensures (forall i :: 0 <= i < |s| ==> !IsUpper(s[i])) ==> r == s
  {
    seq(|s|, i requires 0 <= i < |s| => LowerChar(s[i]))
  }

  /** A string of whitespace holds no other character. */
  lemma AllSpaceHasNo(x: string, c: char)
    requires AllSpace(x) && !IsSpace(c)
    ensures multiset(x)[c] == 0
  {
    assert forall i :: 0 <= i < |x| ==> x[i] != c;
    assert c !in x;
  }

  /** `replace(/\s+/g, "-")`: every maximal whitespace run becomes one dash;
      every other character is kept, and a string with whitespace gets at
      least one dash. */
  function CollapseSpaces(s: string): (r: string)
    ensures |r| <= |s|
    ensures NoSpace(r)
    ensures NoSpace(s) ==> r == s
    ensures forall c :: !IsSpace(c) && c != '-' ==> multiset(r)[c] == multiset(s)[c]
    ensures !NoSpace(s) ==> '-' in r
    decreases |s|
  {
    if s == [] then []
    else if IsSpace(s[0]) then
      var rest := TrimStart(s);
      assert rest == [] || rest[0] != s[0];
      var tail := CollapseSpaces(rest);
      RunBecomesDash(s, |s| - |rest|, rest, tail);
      "-" + tail
    else
      var tail := CollapseSpaces(s[1..]);
      KeptCharStep(s, tail);
      [s[0]] + tail
  }

  /** The space case of `CollapseSpaces`: a whitespace run in front is
      replaced by one dash, which leaves every other character's count. */
  lemma RunBecomesDash(s: string, k: nat, rest: string, tail: string)
    requires 0 < k <= |s| && rest == s[k..] && AllSpace(s[..k]) && IsSpace(s[0])
    requires |tail| <= |rest| && NoSpace(tail)
    requires forall c :: !IsSpace(c) && c != '-' ==> multiset(tail)[c] == multiset(rest)[c]
    ensures |"-" + tail| <= |s| && NoSpace("-" + tail) && !NoSpace(s)
    ensures forall c :: !IsSpace(c) && c != '-' ==> multiset("-" + tail)[c] == multiset(s)[c]
  {
    assert s == s[..k] + rest;
    forall c | !IsSpace(c) && c != '-'
      ensures multiset("-" + tail)[c] == multiset(s)[c]
    {
      AllSpaceHasNo(s[..k], c);
    }
  }

  /** The other case of `CollapseSpaces`: a leading non-space character is
      copied. */
  lemma KeptCharStep(s: string, tail: string)
    requires s != [] && !IsSpace(s[0])
    requires |tail| <= |s| - 1 && NoSpace(tail)
    requires NoSpace(s[1..]) ==> tail == s[1..]
    requires forall c :: !IsSpace(c) && c != '-' ==> multiset(tail)[c] == multiset(s[1..])[c]
    requires !NoSpace(s[1..]) ==> '-' in tail
    ensures |[s[0]] + tail| <= |s| && NoSpace([s[0]] + tail)
    ensures NoSpace(s) ==> [s[0]] + tail == s
    ensures forall c :: !IsSpace(c) && c != '-' ==> multiset([s[0]] + tail)[c] == multiset(s)[c]
    ensures !NoSpace(s) ==> '-' in [s[0]] + tail
  {
    assert s == [s[0]] + s[1..];
    if !NoSpace(s) {
      var i :| 0 <= i < |s| && IsSpace(s[i]);
      assert s[1..][i - 1] == s[i];
    }
  }

  predicate IsSlugChar(c: char)
  {
    ('a' <= c <= 'z') || ('0' <= c <= '9') || c == '-'
  }

  predicate IsSlug(s: string)
  {
    forall i :: 0 <= i < |s| ==> IsSlugChar(s[i])
  }

  /** `replace(/[^a-z0-9\-]/g, "")`: keeps lower-case letters, digits and
      dashes, each as often as it occurs, and drops everything else. */
  function KeepSlugChars(s: string): (r: string)
    ensures |r| <= |s|
    ensures IsSlug(r)
    ensures IsSlug(s) ==> r == s
    ensures forall c :: IsSlugChar(c) ==> multiset(r)[c] == multiset(s)[c]
    decreases |s|
  {
    if s == [] then []
    else if (assert s == [s[0]] + s[1..]; IsSlugChar(s[0])) then [s[0]] + KeepSlugChars(s[1..])
    else KeepSlugChars(s[1..])
  }

  /** A whitespace run in front of a non-space character is exactly what
      `TrimStart` drops. */
  lemma {:induction false} TrimStartRun(w: string, y: string)
    requires AllSpace(w) && (y == [] || !IsSpace(y[0]))
    ensures TrimStart(w + y) == y
    decreases |w|
  {
    if w == [] {
      assert w + y == y;
    } else {
      assert (w + y)[0] == w[0];
      assert (w + y)[1..] == w[1..] + y;
      TrimStartRun(w[1..], y);
    }
  }

  /** A leading whitespace run becomes one dash. */
  lemma LeadingRunBecomesDash(w: string, y: string)
    requires w != [] && AllSpace(w) && (y == [] || !IsSpace(y[0]))
    ensures CollapseSpaces(w + y) == "-" + CollapseSpaces(y)
  {
    assert (w + y)[0] == w[0];
    TrimStartRun(w, y);
  }

  /** A leading non-space character is copied. */
  lemma LeadingCharKept(s: string)
    requires s != [] && !IsSpace(s[0])
    ensures CollapseSpaces(s) == [s[0]] + CollapseSpaces(s[1..])
  {
  }

  lemma ConsOnto(x: string, a: string, b: string, z: string)
    requires x != [] && a == [x[0]] + b && b == x[1..] + "-" + z
    ensures a == x + "-" + z
  {
    assert x == [x[0]] + x[1..];
  }

  /** `/\s+/g` replaces a whole run, not each character: the characters
      before the first run are copied in order, the run becomes one dash,
      and the rest is collapsed the same way. */
  lemma {:induction false} CollapseSpacesRun(x: string, w: string, y: string)
    requires NoSpace(x) && w != [] && AllSpace(w) && (y == [] || !IsSpace(y[0]))
    ensures CollapseSpaces(x + w + y) == x + "-" + CollapseSpaces(y)
    decreases |x|
  {
    if x == [] {
      assert x + w + y == w + y;
      LeadingRunBecomesDash(w, y);
    } else {
      var s := x + w + y;
      assert s[0] == x[0] && s[1..] == x[1..] + w + y;
      LeadingCharKept(s);
      CollapseSpacesRun(x[1..], w, y);
      ConsOnto(x, CollapseSpaces(s), CollapseSpaces(s[1..]), CollapseSpaces(y));
    }
  }

  /** Dropping non-slug characters works piece by piece, so the kept
      characters stay in their original order. */
  lemma {:induction false} KeepSlugCharsAppend(x: string, y: string)
    ensures KeepSlugChars(x + y) == KeepSlugChars(x) + KeepSlugChars(y)
    decreases |x|
  {
    if x == [] {
      assert x + y == y;
    } else {
      assert (x + y)[0] == x[0];
      assert (x + y)[1..] == x[1..] + y;
      KeepSlugCharsAppend(x[1..], y);
    }
  }

  lemma LowerAppend(x: string, y: string)
    ensures Lower(x + y) == Lower(x) + Lower(y)
  {
  }

  /** The slug of a name made of two parts separated by whitespace is the
      slug of the first part, one dash, and the slug of the rest: word order
      is kept and a run of spaces gives a single dash. */
  lemma SlugOfWords(x: string, w: string, y: string)
    requires NoSpace(x) && w != [] && AllSpace(w) && (y == [] || !IsSpace(y[0]))
    ensures Slug(x + w + y) == Slug(x) + "-" + Slug(y)
  {
    var lx, lw, ly := Lower(x), Lower(w), Lower(y);
    LowerAppend(x + w, y);
    LowerAppend(x, w);
    assert Lower(x + w + y) == lx + lw + ly;
    assert NoSpace(lx) && AllSpace(lw);
    assert lw != [];
    CollapseSpacesRun(lx, lw, ly);
    var cy := CollapseSpaces(ly);
    KeepSlugCharsAppend(lx + "-", cy);
    KeepSlugCharsAppend(lx, "-");
    assert KeepSlugChars("-") == "-";
    assert CollapseSpaces(lx) == lx;
  }

  /** An ASCII letter of either case, or a decimal digit. */
  predicate IsAlnum(c: char)
  {
    IsUpper(c) || ('a' <= c <= 'z') || IsDigit(c)
  }

  /** The model-name slug: lower-case, whitespace runs to dashes, then only
      `[a-z0-9-]` kept. Every letter and digit of the name survives,
      lower-cased, so the slug is empty only for a name without any. */
  function Slug(s: string): (r: string)
    ensures IsSlug(r)
    ensures forall c :: ('a' <= c <= 'z' || IsDigit(c)) ==> multiset(r)[c] == multiset(Lower(s))[c]
    ensures (exists i :: 0 <= i < |s| && IsAlnum(s[i])) ==> r != ""
  {
    var low := Lower(s);
    var mid := CollapseSpaces(low);
    var r := KeepSlugChars(mid);
    SlugKeepsAlnum(s, low, mid, r);
    r
  }

  /** Lower-casing sends a letter or digit to a lower-case letter or digit,
      and the two later passes keep those, so each one reaches the slug. */
  lemma SlugKeepsAlnum(s: string, low: string, mid: string, r: string)
    requires |low| == |s|
    requires forall i :: 0 <= i < |s| && IsUpper(s[i]) ==> low[i] as int == s[i] as int + 32
    requires forall i :: 0 <= i < |s| && !IsUpper(s[i]) ==> low[i] == s[i]
    requires forall c :: !IsSpace(c) && c != '-' ==> multiset(mid)[c] == multiset(low)[c]
    requires forall c :: IsSlugChar(c) ==> multiset(r)[c] == multiset(mid)[c]
    ensures forall c :: ('a' <= c <= 'z' || IsDigit(c)) ==> multiset(r)[c] == multiset(low)[c]
    ensures (exists i :: 0 <= i < |s| && IsAlnum(s[i])) ==> r != ""
  {
    if exists i :: 0 <= i < |s| && IsAlnum(s[i]) {
      var i :| 0 <= i < |s| && IsAlnum(s[i]);
      var c := low[i];
      assert 'a' <= c <= 'z' || IsDigit(c);
      assert c in low;
      assert multiset(r)[c] == multiset(low)[c];
    }
  }

  /** A slug is its own slug. */
  lemma SlugIdempotent(s: string)
    ensures Slug(Slug(s)) == Slug(s)
  {
    var t := Slug(s);
    assert NoSpace(t);
    assert Lower(t) == t;
    assert CollapseSpaces(t) == t;
  }

  predicate IsDigit(c: char)
  {
    '0' <= c <= '9'
  }

  predicate AllDigits(s: string)
  {
    forall i :: 0 <= i < |s| ==> IsDigit(s[i])
  }

  function DigitChar(d: int): char
    requires 0 <= d < 10
  {
    ('0' as int + d) as char
  }

  function DigitValue(c: char): int
    requires IsDigit(c)
  {
    c as int - '0' as int
  }

  /** Decimal rendering of a count, as a template literal prints it. */
  function NatToString(n: nat): (r: string)
    ensures |r| >= 1
    ensures AllDigits(r)
    decreases n
  {
    if n < 10 then [DigitChar(n)] else NatToString(n / 10) + [DigitChar(n % 10)]
  }

  /** Reads a run of decimal digits back. */
  function ParseNat(s: string): nat
    requires AllDigits(s)
    decreases |s|
  {
    if s == [] then 0 else ParseNat(s[..|s| - 1]) * 10 + DigitValue(s[|s| - 1])
  }

  /** Rendering a count and reading it back gives the count. */
  lemma {:induction false} ParseNatToString(n: nat)
    ensures ParseNat(NatToString(n)) == n
    decreases n
  {
    var r := NatToString(n);
    if n < 10 {
      assert r[..|r| - 1] == [];
    } else {
      var prefix := NatToString(n / 10);
      assert r == prefix + [DigitChar(n % 10)];
      assert r[..|r| - 1] == prefix;
      ParseNatToString(n / 10);
    }
  }

  /** Distinct counts render differently. */
  lemma NatToStringInjective(a: nat, b: nat)
    requires NatToString(a) == NatToString(b)
    ensures a == b
  {
    ParseNatToString(a);
    ParseNatToString(b);
  }

  /** `parts.join(sep)`. */
  function Join(parts: seq<string>, sep: string): string
    decreases |parts|
  {
    if |parts| == 0 then ""
    else if |parts| == 1 then parts[0]
    else parts[0] + sep + Join(parts[1..], sep)
  }
}

=== FILE: timers.dfy ===
/** The four polling timer slots (`datasetPollRef`, `ftPollRef`,
    `ggufPollRef`, `ollamaPollRef`). A slot holds the task id its repeating
    interval was created for, or nothing; the interval handle itself and the
    clock are not modelled. */
module Timers {
  import opened Values
  import opened Status
  import opened Backend

  datatype Timers = Timers(
    dataset: Option<TaskId>,
    fineTune: Option<TaskId>,
    gguf: Option<TaskId>,
    ollama: Option<TaskId>)
  {
    /** The task the timer of stage `k` polls, if one is active. */
    function Slot(k: StageKind): Option<TaskId>
    {
      match k
      case DatasetKind => dataset
      case FineTuneKind => fineTune
      case GgufKind => gguf
      case OllamaKind => ollama
    }

    function With(k: StageKind, v: Option<TaskId>): (r: Timers)
      ensures r.Slot(k) == v
      ensures forall j :: j != k ==> r.Slot(j) == Slot(j)
    {
      match k
      case DatasetKind => this.(dataset := v)
      case FineTuneKind => this.(fineTune := v)
      case GgufKind => this.(gguf := v)
      case OllamaKind => this.(ollama := v)
    }
  }

  /** No timer is running. */
  const NoTimers := Timers(None, None, None, None)

  /** `stop*Polling`: clears the slot when it holds a timer, and does nothing
      otherwise; the other three slots are untouched. */
  function Stop(t: Timers, k: StageKind): (r: Timers)
    ensures r.Slot(k) == None
    ensures forall j :: j != k ==> r.Slot(j) == t.Slot(j)
    ensures t.Slot(k) == None ==> r == t
  {
    if t.Slot(k) != None then t.With(k, None) else t
  }

  /** Stopping twice is stopping once. */
  lemma StopIdempotent(t: Timers, k: StageKind)
    ensures Stop(Stop(t, k), k) == Stop(t, k)
  {
  }

  /** `start*Polling(id)`: stops the stage's current timer first, then binds a
      fresh one to `id`; whatever task the old timer polled is abandoned. */
  function Start(t: Timers, k: StageKind, id: TaskId): (r: Timers)
    ensures r.Slot(k) == Some(id)
    ensures forall j :: j != k ==> r.Slot(j) == t.Slot(j)
  {
    Stop(t, k).With(k, Some(id))
  }

  /** The later of two starts on one stage wins outright. */
  lemma StartSupersedes(t: Timers, k: StageKind, a: TaskId, b: TaskId)
    ensures Start(Start(t, k, a), k, b) == Start(t, k, b)
  {
  }

  /** The unmount cleanup: all four stop. */
  function StopAll(t: Timers): (r: Timers)
    ensures forall k :: r.Slot(k) == None
  {
    Stop(Stop(Stop(Stop(t, DatasetKind), FineTuneKind), GgufKind), OllamaKind)
  }
}

=== FILE: values.dfy ===
/** Nullable values as the dashboard sees them: a backend field that is
    `null` or absent is `None`; JavaScript's `??` and `||` become
    `Coalesce` and `OrElse`. */
module Values {

  /** A value that may be `null` or `undefined` on the JavaScript side. */
  datatype Option<+T> = None | Some(value: T)

  /** `o ?? d`: the value when present, otherwise the default. */
  function Coalesce<T>(o: Option<T>, d: T): T
  {
    match o
    case Some(v) => v
    case None => d
  }

  /** JavaScript truthiness of a nullable string: present and non-empty. */
  predicate Truthy(o: Option<string>)
  {
    o.Some? && o.value != ""
  }

  /** `o || d` on a nullable string. */
  function OrElse(o: Option<string>, d: string): string
  {
    if Truthy(o) then o.value else d
  }
}
